=== FILE: README.md ===
# git-manager-discord, modelled in Dafny

git-manager-discord is a Discord bot and GitHub webhook receiver that keeps
local git working copies and their submodules up to date. This project models
its decision logic:

- **`GitManager`** (`src/utils/gitManager.js`) does the following:
  - parses `.gitmodules`;
  - lists a repository and its submodules;
  - pulls a repository, with a dirty-tree gate, an optional stash, a
    detached-HEAD repair and an upstream / no-upstream fallback chain;
  - repairs detached submodules in a batch;
  - summarises a repository's status.
- **`WebhookService`** (`src/services/webhookService.js`) holds the
  GitHub-name-to-path mapping and decides what a push event triggers.
- **`ButtonHandler`** (`src/handlers/buttonHandler.js`) splits and
  dispatches button custom ids, keeps the path-hash map, chooses the commit
  modal's id, and counts the status of all repositories.
- **`PanelService`** (`src/services/panelService.js`) is the registry of
  active control panels.

Every git command and filesystem probe is an **oracle**: a datatype that
carries each call's answer, given as an input. `PullReconciler.PullOracle`
covers a pull. `Workspace.Probe` covers one submodule directory: whether
`.git` exists, whether HEAD is detached, and which fetches, checkouts and
resets succeed. Methods that issue mutating git commands also return the
trace of those commands (`seq<GitOp>`). This makes statements such as
"nothing is issued before the gate" or "resets are tried in this order"
expressible.

The clock, `crypto.randomBytes` and MD5 are also inputs:
- the clock becomes the `stamp`, `now1` and `now2` parameters;
- `crypto.randomBytes` becomes the `freshId` parameter;
- MD5 becomes the `md5` field of `ButtonHandler`, which is assumed to produce
  32 lower-case hex digits.

Modules, one per file:

| module | file | models |
|---|---|---|
| `Wrappers` | wrappers.dfy | Option/Result, and JavaScript truthiness of strings |
| `Text` | text.dfy | the string builtins used: `startsWith`, `indexOf`, `replace`, `lastIndexOf`, `toLowerCase`, `split`, `path.join`, `path.basename` |
| `Workspace` | workspace.dfy | the git command trace and the per-directory probe |
| `SubmoduleConfig` | submodule_config.dfy | `getSubmodules` and its regular expression |
| `SubmoduleRepair` | submodule_repair.dfy | `fixDetachedSubmodules` |
| `PullReconciler` | pull_reconciler.dfy | `pullRepository`, `updateSubmodules`, `initSubmodules` |
| `Inventory` | inventory.dfy | `getRepositories`, `getRepositoryStatus` |
| `Webhook` | webhook.dfy | `WebhookService` |
| `Buttons` | buttons.dfy | `ButtonHandler` |
| `Panels` | panels.dfy | `PanelService` |

## Model

| member | source | states |
|---|---|---|
| SubmoduleConfig.MatchFrom | src/utils/gitManager.js:195 | a match of `submodule\.(.+?)\.(.+?)=(.+)` starting at a position yields a name, key and value that are non-empty and free of line terminators |
| SubmoduleConfig.EntryLine | src/utils/gitManager.js:195 | a line `submodule.<name>.<key>=<value>` with a dot-free name and a key without '=' is matched as exactly that name, key and value |
| SubmoduleConfig.DottedNameDropped | src/utils/gitManager.js:195-202 | a submodule name that contains a dot is split at its first dot by the lazy group, so the key is not `path` and the line yields no submodule |
| SubmoduleConfig.PathLineParsed | src/utils/gitManager.js:195-209 | a `path` line with short, dot-free name and path yields the submodule with that name and path, whose safe names equal them |
| SubmoduleConfig.Ellipsize | src/utils/gitManager.js:206-207 | the safe name is the name itself up to 100 characters; otherwise it is the first 100 characters followed by "..." |
| SubmoduleConfig.GetSubmodules | src/utils/gitManager.js:182-223 | the loop returns the parse of the configuration listing, and every entry it returns has a non-empty name and path of at most 1000 characters, with safe forms as Ellipsize gives them |
| SubmoduleConfig.SubmodulesBounded | src/utils/gitManager.js:198-207 | every parsed submodule respects the 1000-character cut and the 100-character safe forms |
| SubmoduleConfig.ParsedBounded | src/utils/gitManager.js:187-210 | the bounds hold for the whole parse of any output, including a failed or empty call |
| SubmoduleConfig.SubmodulesOfAppend | src/utils/gitManager.js:203-209 | parsing is line by line and keeps input order: the parse of two blocks of lines is the concatenation of their parses |
| SubmoduleConfig.SubmodulesCount | src/utils/gitManager.js:193-210 | there is exactly one submodule per line whose match has the key `path` |
| SubmoduleConfig.EmptyOutput | src/utils/gitManager.js:187 | empty output and a failed git call both give no submodules |
| SubmoduleRepair.LocalCandidates | src/utils/gitManager.js:488 | exactly the branches of `branch -a` that contain no "remotes/" and are not HEAD |
| SubmoduleRepair.FirstLocalCommon | src/utils/gitManager.js:473-485 | the first common branch that exists locally and checks out, or none exactly when no such branch checks out |
| SubmoduleRepair.FirstTracked | src/utils/gitManager.js:506-519 | the first common branch whose remote counterpart exists and can be tracked, or none exactly when none can |
| SubmoduleRepair.TryCommonBranches | src/utils/gitManager.js:473-485 | the loop finds the branch FirstLocalCommon names, issues only checkouts, and ends with the checkout of the branch found |
| SubmoduleRepair.TryTrackedBranches | src/utils/gitManager.js:501-521 | the loop finds the branch FirstTracked names and ends with the tracking checkout of it |
| SubmoduleRepair.RepairSubmodule | src/utils/gitManager.js:465-564 | the strategy chain starts with a fetch, issues only checkouts after it, agrees with RepairOutcome, and when it repairs its last command checks out the very branch it reports |
| SubmoduleRepair.FixOne | src/utils/gitManager.js:441-567 | one submodule is skipped, left alone, repaired or failed as Classify says |
| SubmoduleRepair.FixedBranchOrigin | src/utils/gitManager.js:473-521 | a repaired submodule was fetched and is on a common branch or on its first local candidate |
| SubmoduleRepair.StrategiesExhausted | src/utils/gitManager.js:501-523 | when strategies 1 to 3 fail, the read of `remotes` out of its scope fails the submodule with "remotes is not defined", so strategies 4 and 5 never run |
| SubmoduleRepair.MainPreferred | src/utils/gitManager.js:469-480 | a submodule that has a `main` branch that checks out is repaired onto `main` |
| SubmoduleRepair.Fates | src/utils/gitManager.js:438-573 | one fate per submodule, in order, each decided by the probe of its own directory |
| SubmoduleRepair.TotalSplits | src/utils/gitManager.js:461-564 | every detached submodule counts in total and in exactly one of fixed and errors |
| SubmoduleRepair.CountersBounded | src/utils/gitManager.js:438-573 | total plus skipped never exceeds the number of submodules |
| SubmoduleRepair.NoneDetached | src/utils/gitManager.js:565-567 | when no submodule is detached, total, fixed and errors stay zero |
| SubmoduleRepair.SkippedAreUninitialised | src/utils/gitManager.js:445-449 | when every submodule has its `.git`, none is skipped |
| SubmoduleRepair.ReportConsistent | src/utils/gitManager.js:579-587 | the report has fixed + errors = total, fixed <= total, total + skipped <= the submodule count, and one detail line per submodule |
| SubmoduleRepair.FixDetachedSubmodules | src/utils/gitManager.js:417-592 | the batch loop produces the expected report, and "no submodules" exactly when the parse is empty |
| PullReconciler.LocalBranches | src/utils/gitManager.js:265 | exactly the branches not under "remotes/" and not HEAD, led by the first such branch |
| PullReconciler.RemoteBranches | src/utils/gitManager.js:273 | exactly the branches under "remotes/" |
| PullReconciler.FindMainOrMaster | src/utils/gitManager.js:268 | `main` or `master` when either is present, none exactly when both are absent |
| PullReconciler.StripRemotePrefixOf | src/utils/gitManager.js:277 | `remotes/<remote>/<branch>` becomes `<branch>` |
| PullReconciler.RepairOpSpec | src/utils/gitManager.js:264-288 | the detached-HEAD repair checks out main or master when present, else the first local branch, else a new branch from the first remote branch with its prefix stripped, else a fresh temporary branch |
| PullReconciler.ResetChainOrder | src/utils/gitManager.js:325-337 | the hard resets go to origin/main, origin/master, origin/develop, origin/development in that order, and every reset before the last one failed |
| PullReconciler.ResetChainSucceeds | src/utils/gitManager.js:325-341 | the chain stops at the first reset that succeeds; when none succeeds, all four are tried |
| PullReconciler.UpdateSubmodules | src/utils/gitManager.js:376-393 | without submodules nothing is issued; otherwise one recursive update, whose failure is reported with its message |
| PullReconciler.InitSubmodules | src/utils/gitManager.js:396-414 | init, then update, each only after the previous step succeeds; complete exactly when both succeed |
| PullReconciler.PhasesCheckoutsFirst | src/utils/gitManager.js:258-365 | gate and repair commands, then sync commands, then pop and submodule commands: every checkout precedes every pull and reset |
| PullReconciler.PullUpstream | src/utils/gitManager.js:300-319 | with an upstream, a pull comes first; only "couldn't find remote ref" leads to the --no-rebase retry and then to fetch and reset; other errors are returned; the outcome is UpstreamResult |
| PullReconciler.ResetToCommonBranch | src/utils/gitManager.js:320-344 | without an upstream: fetch, then the reset chain; "no valid remote branch" exactly when no reset succeeds |
| PullReconciler.ResetFirst | src/utils/gitManager.js:325-337 | the loop issues exactly the reset chain and reports whether any reset succeeded |
| PullReconciler.SyncWithRemote | src/utils/gitManager.js:295-348 | the upstream and no-upstream branches, with the --no-rebase retry only for a missing remote ref; the outcome is SyncResult |
| PullReconciler.PullRepository | src/utils/gitManager.js:238-373 | a dirty tree in normal mode gives the sentinel before any command; the stash is saved first and popped only for a dirty tree in stash mode; a failed pop names the kept stash; the repair precedes every pull and reset; the no-upstream reset order; submodules are touched only on request; after a successful synchronisation the saved stash is popped and the requested update is issued; the outcome is PullResult of the answers |
| PullReconciler.AfterGate | src/utils/gitManager.js:295-368 | past the gate, the synchronisation's commands precede the pop and the submodule update; after a successful synchronisation the pop happens exactly for a saved stash and the requested update is issued unless the pop failed; the outcome is the synchronised result |
| PullReconciler.PullResultSpec | src/utils/gitManager.js:238-373 | a failed status or a failed stash save throws; the sentinel exactly for a dirty tree in normal mode; no valid remote branch exactly when no common branch can be reset to; a pull error other than a missing remote ref is returned; a submodule error only on request |
| PullReconciler.RaisedOnlyBeforeSync | src/utils/gitManager.js:369-372 | pullRepository throws exactly when `git status` or the stash save fails; every later failure is answered with a message |
| PullReconciler.Prelude | src/utils/gitManager.js:244-292 | the gate, the stash save and the detached-HEAD repair, whose failures do not stop the pull; the stop is GateStop |
| PullReconciler.Epilogue | src/utils/gitManager.js:350-368 | the pop happens exactly when a stash was saved and comes first; its failure is the stash-conflict outcome; the submodule update runs only on request, and is issued on request for a repository with submodules unless the pop failed |
| PullReconciler.SentinelOnlyForHasChanges | src/utils/gitManager.js:247-248 | the message `STATUS_HAS_CHANGES` is returned for the dirty-tree outcome and for no other outcome |
| Inventory.StateLabelInjective | src/utils/gitManager.js:129-137 | the status labels of distinct submodule states differ |
| Inventory.ProbeState | src/utils/gitManager.js:129-143 | uninitialised exactly without `.git`, detached exactly with `.git` and a detached HEAD, never "unchecked" |
| Inventory.Entries | src/utils/gitManager.js:121-151 | one entry per submodule, in order |
| Inventory.GetRepositories | src/utils/gitManager.js:96-168 | the loop builds the listing |
| Inventory.ListingShape | src/utils/gitManager.js:102-151 | the main repository comes first with no parent, followed by one entry per parsed submodule, and only the later entries are submodules |
| Inventory.EntriesDescribeSubmodules | src/utils/gitManager.js:121-151 | each submodule entry carries its display name, its joined path, the parent path and the state its probe gives |
| Inventory.Infos | src/utils/gitManager.js:638-668 | one summary line per submodule, in order |
| Inventory.SummaryOrdered | src/utils/gitManager.js:670-676 | detached <= initialized <= total |
| Inventory.SummaryAgreesWithBatch | src/utils/gitManager.js:670-673 | the status summary and the repair batch agree: initialized + skipped = the submodule count, and detached = the batch's total |
| Inventory.GetRepositoryStatus | src/utils/gitManager.js:619-705 | a failed `git status` is raised with its prefix; otherwise the status carries branch, detached flag and change count, has changes exactly when the count is positive, and with submodules carries the ordered summary |
| Webhook.Mapped | src/services/webhookService.js:59-67 | the stored value when it is present and non-empty |
| Webhook.GetLocalPath | src/services/webhookService.js:59-67 | the value of the first of the four keys that resolves, in order; null exactly when all four miss |
| Webhook.MappedAnyCasing | src/services/webhookService.js:53-66 | after a non-empty path is stored, every spelling of the name that differs only in letter case resolves to it |
| Webhook.LowerCaseKeyFirst | src/services/webhookService.js:62-63 | a value under the lower-cased key wins over every other candidate |
| Webhook.ScanCommits | src/services/webhookService.js:174-185 | a pull is asked for exactly when some lower-cased message contains "@pull"; the loop throws exactly when such a commit has no id |
| Webhook.Response.Code | src/services/webhookService.js:132-257 | every answer is 200, 400 or 500 |
| Webhook.WebhookService.constructor | src/services/webhookService.js:8-42 | the mapping is the saved one, or empty when none could be read |
| Webhook.WebhookService.MapRepository | src/services/webhookService.js:53-56 | stores under the lower-cased name, and afterwards every casing of the name resolves to the path |
| Webhook.WebhookService.PostMapping | src/services/webhookService.js:265-278 | 400 and no change exactly when a field is missing; otherwise the mapping gains the entry |
| Webhook.PullAnswer | src/services/webhookService.js:199-252 | the reply to a pull names the repository; the stash retry answers only for a dirty tree; a failed status of either call or a failed stash save on the retry gives 500 with its message; a success reply never carries the sentinel |
| Webhook.WebhookService.PullMapped | src/services/webhookService.js:199-252 | the first pull is normal and without submodules; one stash retry happens exactly when the tree is dirty; the answer carries the rendered PullResult of the normal pull or of the stash retry, or 500 with the thrown message, including a failed stash save on the retry; the answer is PullAnswer |
| Webhook.WebhookService.HandlePush | src/services/webhookService.js:132-257 | other events are ignored, a missing repository gives 400, other branches are ignored, unmapped repositories are refused, and a pull happens exactly for a mapped push to main with an "@pull" commit; without one the push is acknowledged with the commit count; a pull retries in stash mode on the mapped path, and its reply is PullAnswer |
| Buttons.SplitCustomId | src/handlers/buttonHandler.js:91-101 | no parts exactly without ':'; otherwise the id is action + ':' + a colon-free panel id |
| Buttons.SplitJoin | src/handlers/buttonHandler.js:91-101 | an action joined to a colon-free panel id splits back into both |
| Buttons.GetRepoPath | src/handlers/buttonHandler.js:73-79 | the stored path, or undefined for an unmapped hash |
| Buttons.FixAllResolvedFirst | src/handlers/buttonHandler.js:105-119 | a `fix-all-detached-` action is resolved through the map before any other rule |
| Buttons.PullModeShadowed | src/handlers/buttonHandler.js:160-186 | no action ever reaches the stash, force or cancel branches of the pull confirmation |
| Buttons.PullStashMisrouted | src/handlers/buttonHandler.js:160-182 | `pull-stash-<hash>` starts a normal pull of the path "stash-<hash>" |
| Buttons.PullButtonRoutes | src/handlers/buttonHandler.js:121-137 | `pull-<hash>` pulls the mapped path, or reports it missing |
| Buttons.UpdateSubButtonLost | src/handlers/buttonHandler.js:121-147 | `update-sub-<hash>` looks up "sub-<hash>" and reaches no handler |
| Buttons.UpdateAllModesRoute | src/handlers/buttonHandler.js:198-217 | the update-all stash, force and cancel buttons reach their branches |
| Buttons.CorrectedHashButtons | src/handlers/buttonHandler.js:121-147 | with the hash cut from the end, all five hashed buttons reach their handler with the mapped path |
| Buttons.CorrectedPullModes | src/handlers/buttonHandler.js:178-197 | with the mode rules first, the pull stash, force and cancel buttons reach their branches |
| Buttons.ModalTarget | src/handlers/buttonHandler.js:294-318 | only a `commit-modal-` id has a target, and that target is a mapped path or the raw text after the prefix |
| Buttons.CountsPartition | src/handlers/buttonHandler.js:386-390 | mains + submodules = entries, and the three submodule states together never exceed the submodules |
| Buttons.CountStatus | src/handlers/buttonHandler.js:1168-1197 | each counter of the loop counts its class, totalRepos + totalSubmodules = entries, and initialized + uninitialized + detached <= totalSubmodules |
| Buttons.ListingCounts | src/utils/gitManager.js:102-151 | over a listing there is one main repository, and every submodule is in exactly one of the three states |
| Buttons.ButtonHandler.constructor | src/handlers/buttonHandler.js:22-49 | the map is the saved one, or empty |
| Buttons.ButtonHandler.MapRepoPath | src/handlers/buttonHandler.js:62-70 | returns 16 hex digits under which the path is then found |
| Buttons.ButtonHandler.ShowCommitModalId | src/handlers/buttonHandler.js:1064-1071 | paths over 32 characters are replaced by their mapped hash, shorter ones are kept; submitting the modal commits in the same repository |
| Buttons.ButtonHandler.HandleButtonInteraction | src/handlers/buttonHandler.js:87-223 | invalid format without ':'; otherwise the corrected dispatch of the action part |
| Buttons.DispatchAgrees | src/handlers/buttonHandler.js:103-223 | apart from the pull stash, force and cancel actions and the hashed update-sub, fix-detached and init-sub buttons, the dispatch as written and the corrected one agree |
| Panels.PanelButtonsSplit | src/services/panelService.js:86-104 | the panel's button ids split back into `list-repos`, `sync-all`, `status-all` and the panel |
| Panels.PanelButtonsRoute | src/handlers/buttonHandler.js:150-159 | the panel buttons reach the listing, the update of all repositories and the overall status |
| Panels.PanelService.constructor | src/services/panelService.js:11-15 | no panel is active |
| Panels.PanelService.GetPanel | src/services/panelService.js:139-149 | the entry exactly for an active id, null otherwise |
| Panels.PanelService.CreatePanelButtons | src/services/panelService.js:86-104 | three ids which, for a colon-free panel id, split back into `list-repos`, `sync-all`, `status-all` and the current panel |
| Panels.PanelService.CreateGitPanel | src/services/panelService.js:17-42 | exactly one entry is added, under the new id, with no message id and an expiry at least 100 years after creation |
| Panels.PanelService.RegisterMessageId | src/services/panelService.js:108-114 | only the message id of an existing entry changes; an unknown id changes nothing |
| Panels.PanelService.ExpirePanel | src/services/panelService.js:129-136 | the entry is removed, an unknown id changes nothing, and every other panel keeps its state |
| Panels.PanelService.RemovePanel | src/services/panelService.js:152-154 | the entry is removed and every other panel keeps its state |

## Left out

- Git, `child_process` and the filesystem are not executed. Their answers are oracle inputs (`PullOracle`, `Probe`, the `.gitmodules` listing as `Option<string>`, `hasSubmodules`).
- `ensureSafeDirectory` and `ensureSafeSubmodules` are not modelled. They only change global git configuration, and their failures are only logged.
- `isDetachedHead` is not modelled as a method. It never throws and answers `false` on error, so the probe's `detached` flag stands for it. The `'erro ao verificar'` branches are therefore dead and are not modelled. This also covers the dead `submodulesError` catch of `getRepositoryStatus`, because `getSubmodules` never throws.
- Reading and writing `pathHashMap.json` and `repoMapping.json` are not modelled. The saved content is a constructor input.
- The HMAC signature middleware is not modelled, because it calls `next()` on every path.
- MD5 digests, `crypto.randomBytes`, `Date.now()` and `toLocaleString` are parameters, not computations.
- The expiry timer (`setupExpirationTimer`, `setTimeout`) is not modelled: time does not pass in the model. `ExpirePanel` is the action the timer would take.
- Discord embeds, replies, modals and select menus are not modelled, nor are the Express server and its GET routes (`/`, `/health`, `/webhook`, `/mappings`).
- `handleFixDetached` is not modelled. It calls an unimported `simpleGit`.
- `commitAndPush` and `commitAndPull` are not modelled; they are outside the modelled core.
- `handleStatusAll`'s `repositories.length === 0` reply is not modelled, because `getRepositories` always lists the main repository.
- Only `hasChanges` of a main repository's `getRepositoryStatus` reaches `handleStatusAll`, as the `changes` input. A failed call counts as no change.
- Text handling is simplified:
  - `toLowerCase` folds ASCII letters only;
  - JavaScript string lengths count UTF-16 units, but here they count characters;
  - `path.join` is modelled as `a + "/" + b`, without normalisation.
- Property names inherited from `Object.prototype` (for example `constructor`) are not modelled as present in the plain-object maps.
- PullReconciler.PullRepository: one `stamp` stands for both `Date.now()` readings of a call, the stash name (src/utils/gitManager.js:253) and the temporary branch name (:283). No stated property depends on the two being equal.
- The `upstream` field of the branch summary is taken as the oracle gives it, tested for truthiness as at src/utils/gitManager.js:300. Whether the git library fills that field is not part of this model; an oracle that never names one takes the fetch-and-reset path.
- `src/index.js`, `src/deploy-commands.js` and `src/commands/init.js` are not part of this model.
- Panels.PanelService.CreateGitPanel: requires `now1 <= now2` for its two clock readings, i.e. a clock that does not run backwards.
- Buttons.ButtonHandler.MapRepoPath: requires that `md5` always yields 32 lower-case hex digits.
- Buttons.ButtonHandler.ShowCommitModalId: the round trip to the same repository is stated only when the short path is not itself a key of the map. A short path that equals a stored hash is resolved to that hash's path.
- Buttons.ButtonHandler.HandleButtonInteraction: follows the corrected dispatch (see Findings). The dispatch as written is `Buttons.Dispatch`, whose consequences are stated by the lemmas above; `Buttons.DispatchAgrees` shows the two differ only on the actions listed in Findings.

## Findings

| source | as written | input that shows it | evidently intended | confidence | as-written member | corrected member |
|---|---|---|---|---|---|---|
| src/handlers/buttonHandler.js:160-186 | `startsWith('pull-')` comes before `pull-stash-`, `pull-force-` and `pull-cancel-`, so it captures them and takes the rest of the action as the path | `pull-stash-<16 hex digits>:<panel>`, the id made at lines 628-638, starts a normal pull of the path "stash-<hash>" | the pull in stash mode (force, cancel likewise) of the path mapped to the hash | high, not executed | Buttons.PullStashMisrouted | Buttons.CorrectedPullModes |
| src/handlers/buttonHandler.js:121-147 | the hex-hash rule takes the prefix up to the first '-', so the hash it looks up still contains the rest of a multi-word prefix | `update-sub-<16 hex digits>:<panel>`, the id made at line 549, looks up "sub-<hash>" and reaches no handler; `fix-detached-` and `init-sub-` likewise | the 16 hex digits at the end are the key, and the whole prefix chooses the handler | high, not executed | Buttons.UpdateSubButtonLost | Buttons.CorrectedHashButtons |

=== FILE: buttons.dfy ===
/** The interaction routing of ButtonHandler: custom-id splitting, the
    dispatch chain, the path-hash map, the commit modal and the status
    counters (src/handlers/buttonHandler.js). */
module Buttons {
  import opened Wrappers
  import opened Text
  import opened Inventory
  import PR = PullReconciler
  import Workspace

  // ---------------------------------------------------------------------------
  // Custom ids (src/handlers/buttonHandler.js:89-101)

  /** A custom id cut at its last ':' into the action and the panel id. */
  datatype SplitId = NoColon | Parts(action: string, panelId: string)

  function SplitCustomId(id: string): (r: SplitId)
    ensures r.NoColon? <==> ':' !in id
    ensures r.Parts? ==> id == r.action + ":" + r.panelId && ':' !in r.panelId
  {
    match LastIndexOf(id, ':')
    case None => NoColon
    case Some(i) =>
      assert id == id[..i] + ":" + id[i + 1..];
      Parts(id[..i], id[i + 1..])
  }

  /** Joining an action and a colon-free panel id splits back into both. */
  lemma SplitJoin(action: string, panelId: string)
    requires ':' !in panelId
    ensures SplitCustomId(action + ":" + panelId) == Parts(action, panelId)
  {
    var id := action + ":" + panelId;
    assert id[|action|] == ':';
    assert id[|action| + 1..] == panelId;
    var i := LastIndexOf(id, ':').value;
    assert id[..i] == action;
  }

  // ---------------------------------------------------------------------------
  // The path-hash map (src/handlers/buttonHandler.js:62-79)

  /** `global.pathHashMap[pathHash]`: undefined when the hash was never mapped. */
  function GetRepoPath(m: map<string, string>, pathHash: string): (r: Option<string>)
    ensures r.Some? <==> pathHash in m
    ensures r.Some? ==> r.value == m[pathHash]
  {
    if pathHash in m then Some(m[pathHash]) else None
  }

  /** The promise of an MD5 hex digest: 32 lower-case hexadecimal digits. */
  ghost predicate IsMd5Hex(md5: string -> string) {
    forall s :: |md5(s)| == 32 && IsLowerHex(md5(s))
  }

  // ---------------------------------------------------------------------------
  // The dispatch chain (src/handlers/buttonHandler.js:103-223)

  /** What a button press leads to. */
  datatype Action =
    | InvalidFormat                              // no ':' in the id
    | RepoNotFound                               // 'Informações do repositório não encontradas'
    | FixAllDetachedForRepo(path: string)
    | PullRepo(path: string)
    | UpdateSubmodules(path: string)
    | FixDetached(path: string)
    | InitSubmodules(path: string)
    | ShowCommitModal(path: string)
    | NoHandler                                  // a hash id whose prefix matches no handler
    | ListRepos
    | UpdateAll                                  // 'update-all' and 'sync-all'
    | FixAllDetached
    | StatusAll
    | PullWithMode(target: Option<string>, mode: PR.Mode)
    | UpdateAllWithMode(target: Option<string>, mode: PR.Mode)
    | PullCancelled
    | UpdateAllCancelled
    | Unrecognised(action: string)

  const FixAllPrefix: string := "fix-all-detached-"

  /** `action` is one of the prefixes followed by exactly 16 hexadecimal digits. */
  predicate PrefixedHash(action: string, prefix: string) {
    |action| == |prefix| + 16 && StartsWith(action, prefix) && IsLowerHex(action[|prefix|..])
  }

  /** `/^(pull-|update-sub-|fix-detached-|init-sub-|commit-)[a-f0-9]{16}$/`. */
  predicate HashRule(action: string) {
    PrefixedHash(action, "pull-") || PrefixedHash(action, "update-sub-") ||
    PrefixedHash(action, "fix-detached-") || PrefixedHash(action, "init-sub-") ||
    PrefixedHash(action, "commit-")
  }

  /** The handler a hash-id prefix names, for the path the hash maps to. */
  function HashedHandler(prefix: string, path: string): Action {
    if prefix == "pull-" then PullRepo(path)
    else if prefix == "update-sub-" then UpdateSubmodules(path)
    else if prefix == "fix-detached-" then FixDetached(path)
    else if prefix == "init-sub-" then InitSubmodules(path)
    else if prefix == "commit-" then ShowCommitModal(path)
    else NoHandler
  }

  /** A hash id split into `prefix` and `pathHash`, resolved through the map. */
  function ResolveHashed(m: map<string, string>, prefix: string, pathHash: string): Action {
    var p := GetRepoPath(m, pathHash);
    if !Truthy(p) then RepoNotFound else HashedHandler(prefix, p.value)
  }

  /** The first rule: `fix-all-detached-<hash>` resolved through the map. */
  function FixAllRule(action: string, m: map<string, string>): Action
    requires StartsWith(action, FixAllPrefix)
  {
    var p := GetRepoPath(m, action[|FixAllPrefix|..]);
    if !Truthy(p) then RepoNotFound else FixAllDetachedForRepo(p.value)
  }

  /** The ids without a path. */
  function ExactAction(action: string): Option<Action> {
    if action == "list-repos" then Some(ListRepos)
    else if action == "update-all" then Some(UpdateAll)
    else if action == "fix-all-detached" then Some(FixAllDetached)
    else if action == "sync-all" then Some(UpdateAll)
    else if action == "status-all" then Some(StatusAll)
    else None
  }

  /** The ids carrying a raw repository path after their prefix. */
  function RawPathAction(action: string): Option<Action> {
    if StartsWith(action, "pull-") then Some(PullRepo(ReplaceFirst(action, "pull-", "")))
    else if StartsWith(action, "update-sub-") then Some(UpdateSubmodules(ReplaceFirst(action, "update-sub-", "")))
    else if StartsWith(action, "fix-detached-") then Some(FixDetached(ReplaceFirst(action, "fix-detached-", "")))
    else if StartsWith(action, FixAllPrefix) then Some(FixAllDetachedForRepo(ReplaceFirst(action, FixAllPrefix, "")))
    else if StartsWith(action, "init-sub-") then Some(InitSubmodules(ReplaceFirst(action, "init-sub-", "")))
    else if StartsWith(action, "commit-") then Some(ShowCommitModal(ReplaceFirst(action, "commit-", "")))
    else None
  }

  /** The ids of the confirmation buttons for a dirty tree: a hash and a mode. */
  function ModeAction(action: string, m: map<string, string>): Option<Action> {
    if StartsWith(action, "pull-stash-") then Some(PullWithMode(GetRepoPath(m, ReplaceFirst(action, "pull-stash-", "")), PR.Stash))
    else if StartsWith(action, "pull-force-") then Some(PullWithMode(GetRepoPath(m, ReplaceFirst(action, "pull-force-", "")), PR.Force))
    else if StartsWith(action, "pull-cancel-") then Some(PullCancelled)
    else if StartsWith(action, "update-all-stash-") then
      Some(UpdateAllWithMode(GetRepoPath(m, ReplaceFirst(action, "update-all-stash-", "")), PR.Stash))
    else if StartsWith(action, "update-all-force-") then
      Some(UpdateAllWithMode(GetRepoPath(m, ReplaceFirst(action, "update-all-force-", "")), PR.Force))
    else if StartsWith(action, "update-all-cancel-") then Some(UpdateAllCancelled)
    else None
  }

  /** The dispatch of handleButtonInteraction as written: the hash rule cuts
      the prefix at the first '-', and the raw-path rules are tried before the
      confirmation-button rules. */
  function Dispatch(action: string, m: map<string, string>): Action {
    if StartsWith(action, FixAllPrefix) then FixAllRule(action, m)
    else if HashRule(action) then
      var cut := match IndexOfChar(action, '-') case Some(i) => i + 1 case None => 0;
      ResolveHashed(m, action[..cut], action[cut..])
    else if ExactAction(action).Some? then ExactAction(action).value
    else if RawPathAction(action).Some? then RawPathAction(action).value
    else if ModeAction(action, m).Some? then ModeAction(action, m).value
    else Unrecognised(action)
  }

  /** The dispatch as evidently intended: the hash rule cuts at the matched
      prefix, and the confirmation-button rules come before the raw-path rules. */
  function DispatchCorrected(action: string, m: map<string, string>): Action {
    if StartsWith(action, FixAllPrefix) then FixAllRule(action, m)
    else if HashRule(action) then
      ResolveHashed(m, action[..|action| - 16], action[|action| - 16..])
    else if ExactAction(action).Some? then ExactAction(action).value
    else if ModeAction(action, m).Some? then ModeAction(action, m).value
    else if RawPathAction(action).Some? then RawPathAction(action).value
    else Unrecognised(action)
  }

  // ---------------------------------------------------------------------------
  // Properties of the dispatch as written

  /** A 16-digit lower-case hexadecimal hash, as mapRepoPath produces. */
  predicate IsPathHash(h: string) {
    |h| == 16 && IsLowerHex(h)
  }

  lemma PrefixOf(p: string, h: string)
    ensures StartsWith(p + h, p) && (p + h)[|p|..] == h
  {
    assert (p + h)[..|p|] == p;
  }

  /** A '-' precedes the hash in every hash id: the first '-' sits at `i`. */
  lemma FirstDash(p: string, h: string, i: nat)
    requires IsPathHash(h) && i < |p| && p[i] == '-' && '-' !in p[..i]
    ensures IndexOfChar(p + h, '-') == Some(i)
  {
    assert (p + h)[..i] == p[..i];
  }

  /** The fix-all-detached rule comes first: such an id resolves through the
      map, and the later raw-path rule for it never runs. */
  lemma FixAllResolvedFirst(action: string, m: map<string, string>)
    requires StartsWith(action, FixAllPrefix)
    ensures Dispatch(action, m) == RepoNotFound ||
            Dispatch(action, m) == FixAllDetachedForRepo(m[action[|FixAllPrefix|..]])
  {
  }

  /** The confirmation buttons of a pull are shadowed by the earlier
      `startsWith('pull-')` rule: no id reaches the pull-with-mode handler or
      the pull cancellation. */
  lemma PullModeShadowed(action: string, m: map<string, string>)
    ensures var d := Dispatch(action, m); !d.PullWithMode? && !d.PullCancelled?
  {
    if StartsWith(action, FixAllPrefix) || HashRule(action) || ExactAction(action).Some? {
    } else if StartsWith(action, "pull-") {
      assert RawPathAction(action).Some?;
    } else if StartsWith(action, "pull-stash-") || StartsWith(action, "pull-force-") || StartsWith(action, "pull-cancel-") {
      PullFamily(action);
    }
  }

  lemma PullFamily(action: string)
    requires StartsWith(action, "pull-stash-") || StartsWith(action, "pull-force-") || StartsWith(action, "pull-cancel-")
    ensures StartsWith(action, "pull-")
  {
    assert action[..5] == "pull-";
  }

  /** The stash button of a pull, `pull-stash-<hash>`, starts a normal pull
      of the path "stash-<hash>". */
  lemma PullStashMisrouted(h: string, m: map<string, string>)
    requires IsPathHash(h)
    ensures Dispatch("pull-stash-" + h, m) == PullRepo("stash-" + h)
  {
    var a := "pull-stash-" + h;
    PrefixOf("pull-stash-", h);
    assert a[..5] == "pull-";
    assert a[5..] == "stash-" + h;
    assert !PrefixedHash(a, "update-sub-") by { assert a[0] != 'u'; }
    ReplacePrefix(a, "pull-");
  }

  /** The pull button `pull-<hash>` reaches the pull of the mapped path. */
  lemma PullButtonRoutes(h: string, m: map<string, string>)
    requires IsPathHash(h)
    ensures Dispatch("pull-" + h, m) == (if Truthy(GetRepoPath(m, h)) then PullRepo(m[h]) else RepoNotFound)
  {
    var a := "pull-" + h;
    PrefixOf("pull-", h);
    assert !StartsWith(a, FixAllPrefix) by { assert a[0] != 'f'; }
    FirstDash("pull-", h, 4);
    assert a[..5] == "pull-";
  }

  /** The submodule-update button `update-sub-<hash>` is cut after "update-":
      the map is asked for "sub-<hash>", and even when that resolves no
      handler is named "update-". */
  lemma UpdateSubButtonLost(h: string, m: map<string, string>)
    requires IsPathHash(h)
    ensures Dispatch("update-sub-" + h, m) ==
      (if Truthy(GetRepoPath(m, "sub-" + h)) then NoHandler else RepoNotFound)
  {
    var a := "update-sub-" + h;
    PrefixOf("update-sub-", h);
    assert !StartsWith(a, FixAllPrefix) by { assert a[0] != 'f'; }
    FirstDash("update-sub-", h, 6);
    assert a[..7] == "update-";
    assert a[7..] == "sub-" + h;
  }

  /** The confirmation buttons of an update of all repositories do reach
      their own handlers: no earlier rule captures `update-all-`. */
  lemma UpdateAllModesRoute(h: string, m: map<string, string>)
    requires IsPathHash(h)
    ensures Dispatch("update-all-stash-" + h, m) == UpdateAllWithMode(GetRepoPath(m, h), PR.Stash)
    ensures Dispatch("update-all-force-" + h, m) == UpdateAllWithMode(GetRepoPath(m, h), PR.Force)
    ensures Dispatch("update-all-cancel-" + h, m) == UpdateAllCancelled
  {
    UpdateAllMode("update-all-stash-", h, m);
    UpdateAllMode("update-all-force-", h, m);
    UpdateAllMode("update-all-cancel-", h, m);
  }

  lemma UpdateAllMode(p: string, h: string, m: map<string, string>)
    requires IsPathHash(h) && p in {"update-all-stash-", "update-all-force-", "update-all-cancel-"}
    ensures p == "update-all-stash-" ==> Dispatch(p + h, m) == UpdateAllWithMode(GetRepoPath(m, h), PR.Stash)
    ensures p == "update-all-force-" ==> Dispatch(p + h, m) == UpdateAllWithMode(GetRepoPath(m, h), PR.Force)
    ensures p == "update-all-cancel-" ==> Dispatch(p + h, m) == UpdateAllCancelled
  {
    var a := p + h;
    PrefixOf(p, h);
    assert a[..11] == "update-all-";
    NoEarlierRule(a);
    assert !StartsWith(a, "pull-stash-") && !StartsWith(a, "pull-force-") && !StartsWith(a, "pull-cancel-") by {
      assert a[0] == 'u';
    }
    if p != "update-all-stash-" {
      assert !StartsWith(a, "update-all-stash-") by { assert a[11] != 's'; }
    }
    if p == "update-all-cancel-" {
      assert !StartsWith(a, "update-all-force-") by { assert a[11] != 'f'; }
    }
    ReplacePrefix(a, p);
  }

  /** An id starting with `update-all-` passes every rule before the
      confirmation-button rules. */
  lemma NoEarlierRule(a: string)
    requires |a| > 11 && a[..11] == "update-all-"
    ensures !StartsWith(a, FixAllPrefix) && !HashRule(a) && ExactAction(a).None? && RawPathAction(a).None?
  {
    assert a[0] == 'u' && a[7] == 'a';
    assert !StartsWith(a, "update-sub-") by { assert a[7] != "update-sub-"[7]; }
  }

  // ---------------------------------------------------------------------------
  // Properties of the corrected dispatch

  /** The corrected dispatch differs from the dispatch as written only on the
      two families of the findings: the pull confirmation buttons, and the hash
      buttons whose prefix holds a second '-'. Every other action is routed
      alike. */
  lemma DispatchAgrees(a: string, m: map<string, string>)
    requires !StartsWith(a, "pull-stash-") && !StartsWith(a, "pull-force-") && !StartsWith(a, "pull-cancel-")
    requires !(HashRule(a) && (StartsWith(a, "update-sub-") || StartsWith(a, "fix-detached-") || StartsWith(a, "init-sub-")))
    ensures Dispatch(a, m) == DispatchCorrected(a, m)
  {
    if StartsWith(a, FixAllPrefix) {
    } else if HashRule(a) {
      if PrefixedHash(a, "pull-") {
        HashCut(a, "pull-");
      } else {
        assert PrefixedHash(a, "commit-") by {
          assert !PrefixedHash(a, "update-sub-") && !PrefixedHash(a, "fix-detached-") && !PrefixedHash(a, "init-sub-");
        }
        HashCut(a, "commit-");
      }
    } else if ExactAction(a).Some? {
    } else if ModeAction(a, m).Some? {
      ModeFamily(a, m);
      NoEarlierRule(a);
    }
  }

  /** For the one-word prefixes the first '-' ends the prefix, so both cuts agree. */
  lemma HashCut(a: string, p: string)
    requires p in {"pull-", "commit-"} && PrefixedHash(a, p)
    ensures IndexOfChar(a, '-') == Some(|p| - 1) && |p| == |a| - 16
  {
    var h := a[|p|..];
    assert a == p + h;
    FirstDash(p, h, |p| - 1);
  }

  /** Outside the pull confirmation buttons, the confirmation rules only
      accept ids of the update of all repositories. */
  lemma ModeFamily(a: string, m: map<string, string>)
    requires ModeAction(a, m).Some?
    requires !StartsWith(a, "pull-stash-") && !StartsWith(a, "pull-force-") && !StartsWith(a, "pull-cancel-")
    ensures |a| > 11 && a[..11] == "update-all-"
  {
    if StartsWith(a, "update-all-stash-") {
      assert a[..11] == "update-all-stash-"[..11];
    } else if StartsWith(a, "update-all-force-") {
      assert a[..11] == "update-all-force-"[..11];
    } else {
      assert a[..11] == "update-all-cancel-"[..11];
    }
  }

  /** With the hash mapped, every hash button and confirmation button reaches
      its own handler with the mapped path. */
  lemma CorrectedHashButtons(h: string, m: map<string, string>)
    requires IsPathHash(h) && Truthy(GetRepoPath(m, h))
    ensures DispatchCorrected("pull-" + h, m) == PullRepo(m[h])
    ensures DispatchCorrected("update-sub-" + h, m) == UpdateSubmodules(m[h])
    ensures DispatchCorrected("fix-detached-" + h, m) == FixDetached(m[h])
    ensures DispatchCorrected("init-sub-" + h, m) == InitSubmodules(m[h])
    ensures DispatchCorrected("commit-" + h, m) == ShowCommitModal(m[h])
  {
    CorrectedHash("pull-", h, m);
    CorrectedHash("update-sub-", h, m);
    CorrectedHash("fix-detached-", h, m);
    CorrectedHash("init-sub-", h, m);
    CorrectedHash("commit-", h, m);
  }

  lemma CorrectedHash(p: string, h: string, m: map<string, string>)
    requires IsPathHash(h) && p in {"pull-", "update-sub-", "fix-detached-", "init-sub-", "commit-"}
    ensures DispatchCorrected(p + h, m) == ResolveHashed(m, p, h)
  {
    var a := p + h;
    PrefixOf(p, h);
    assert !StartsWith(a, FixAllPrefix) by { assert a[4] == p[4] != 'a'; }
    assert a[..|a| - 16] == p && a[|a| - 16..] == h;
  }

  /** The confirmation buttons of a pull reach the pull with that mode, or the
      cancellation. */
  lemma CorrectedPullModes(h: string, m: map<string, string>)
    requires IsPathHash(h)
    ensures DispatchCorrected("pull-stash-" + h, m) == PullWithMode(GetRepoPath(m, h), PR.Stash)
    ensures DispatchCorrected("pull-force-" + h, m) == PullWithMode(GetRepoPath(m, h), PR.Force)
    ensures DispatchCorrected("pull-cancel-" + h, m) == PullCancelled
  {
    CorrectedMode("pull-stash-", h, m);
    CorrectedMode("pull-force-", h, m);
    CorrectedMode("pull-cancel-", h, m);
  }

  lemma CorrectedMode(p: string, h: string, m: map<string, string>)
    requires IsPathHash(h) && p in {"pull-stash-", "pull-force-", "pull-cancel-"}
    ensures p == "pull-stash-" ==> DispatchCorrected(p + h, m) == PullWithMode(GetRepoPath(m, h), PR.Stash)
    ensures p == "pull-force-" ==> DispatchCorrected(p + h, m) == PullWithMode(GetRepoPath(m, h), PR.Force)
    ensures p == "pull-cancel-" ==> DispatchCorrected(p + h, m) == PullCancelled
  {
    var a := p + h;
    PrefixOf(p, h);
    assert a[..5] == "pull-" && a[5] != a[4];
    assert !HashRule(a);
    assert !StartsWith(a, FixAllPrefix) && ExactAction(a).None? by { assert a[0] == 'p' && |a| > 11; }
    if p != "pull-stash-" {
      assert !StartsWith(a, "pull-stash-") by { assert a[5] != 's'; }
    }
    if p == "pull-cancel-" {
      assert !StartsWith(a, "pull-force-") by { assert a[5] != 'f'; }
    }
    ReplacePrefix(a, p);
  }

  // ---------------------------------------------------------------------------
  // The commit modal (src/handlers/buttonHandler.js:294-331, 1064-1101)

  const CommitModalPrefix: string := "commit-modal-"

  /** handleModalSubmit: the repository a submitted modal id commits in, the
      hash resolved through the map with the raw text as fallback; `None` for
      an id without ':' or of another modal. */
  function ModalTarget(customId: string, m: map<string, string>): (r: Option<string>)
    ensures r.Some? <==> SplitCustomId(customId).Parts? && StartsWith(SplitCustomId(customId).action, CommitModalPrefix)
    // either a mapped path or the text after the prefix itself
    ensures r.Some? ==>
      (r.value in m.Values || r.value == ReplaceFirst(SplitCustomId(customId).action, CommitModalPrefix, ""))
  {
    match SplitCustomId(customId)
    case NoColon => None
    case Parts(action, _) =>
      if StartsWith(action, CommitModalPrefix) then
        var raw := ReplaceFirst(action, CommitModalPrefix, "");
        Some(OrElse(GetRepoPath(m, raw), raw))
      else None
  }

  // ---------------------------------------------------------------------------
  // The status counters (src/handlers/buttonHandler.js:386-390, 1168-1197)

  /** `repositories.filter(r => !r.isSubmodule).length`. */
  function MainCount(repos: seq<RepoEntry>): nat {
    if repos == [] then 0 else MainCount(repos[..|repos| - 1]) + (if repos[|repos| - 1].isSubmodule then 0 else 1)
  }

  /** `repositories.filter(r => r.isSubmodule).length`. */
  function SubmoduleCount(repos: seq<RepoEntry>): nat {
    if repos == [] then 0 else SubmoduleCount(repos[..|repos| - 1]) + (if repos[|repos| - 1].isSubmodule then 1 else 0)
  }

  /** `repositories.filter(r => r.isSubmodule && r.status === <s>).length`. */
  function SubmodulesIn(repos: seq<RepoEntry>, s: RepoState): nat {
    if repos == [] then 0
    else SubmodulesIn(repos[..|repos| - 1], s) + (if repos[|repos| - 1].isSubmodule && repos[|repos| - 1].state == s then 1 else 0)
  }

  /** The main repositories whose status reports changes; `changes` answers
      getRepositoryStatus per path (`None` when it throws). */
  function ChangedMains(repos: seq<RepoEntry>, changes: string -> Option<bool>): nat {
    if repos == [] then 0
    else
      var r := repos[|repos| - 1];
      ChangedMains(repos[..|repos| - 1], changes) + (if !r.isSubmodule && changes(r.path) == Some(true) then 1 else 0)
  }

  datatype StatusCounts = StatusCounts(
    totalRepos: nat,
    totalSubmodules: nat,
    reposWithChanges: nat,
    initialized: nat,
    uninitialized: nat,
    detached: nat)

  /** Every entry is a main repository or a submodule, each submodule has at
      most one of the three states, and only main repositories count as changed. */
  lemma {:induction false} CountsPartition(repos: seq<RepoEntry>, changes: string -> Option<bool>)
    ensures MainCount(repos) + SubmoduleCount(repos) == |repos|
    ensures SubmodulesIn(repos, Initialised) + SubmodulesIn(repos, Uninitialised) + SubmodulesIn(repos, DetachedHead)
            <= SubmoduleCount(repos)
    ensures ChangedMains(repos, changes) <= MainCount(repos)
  {
    if repos != [] {
      CountsPartition(repos[..|repos| - 1], changes);
    }
  }

  lemma CountsSnoc(repos: seq<RepoEntry>, i: nat, changes: string -> Option<bool>)
    requires i < |repos|
    ensures var r := repos[i];
      MainCount(repos[..i + 1]) == MainCount(repos[..i]) + (if r.isSubmodule then 0 else 1) &&
      SubmoduleCount(repos[..i + 1]) == SubmoduleCount(repos[..i]) + (if r.isSubmodule then 1 else 0) &&
      (forall s :: SubmodulesIn(repos[..i + 1], s) == SubmodulesIn(repos[..i], s) + (if r.isSubmodule && r.state == s then 1 else 0)) &&
      ChangedMains(repos[..i + 1], changes) == ChangedMains(repos[..i], changes) +
        (if !r.isSubmodule && changes(r.path) == Some(true) then 1 else 0)
  {
    assert repos[..i + 1][..i] == repos[..i];
  }

  /** The counting loop of handleStatusAll agrees with the filters of
      handleListRepositories. */
  method CountStatus(repos: seq<RepoEntry>, changes: string -> Option<bool>) returns (c: StatusCounts)
    ensures c.totalRepos == MainCount(repos) && c.totalSubmodules == SubmoduleCount(repos)
    ensures c.initialized == SubmodulesIn(repos, Initialised)
    ensures c.uninitialized == SubmodulesIn(repos, Uninitialised)
    ensures c.detached == SubmodulesIn(repos, DetachedHead)
    ensures c.reposWithChanges == ChangedMains(repos, changes)
    ensures c.totalRepos + c.totalSubmodules == |repos|
    ensures c.initialized + c.uninitialized + c.detached <= c.totalSubmodules
  {
    var totalRepos, totalSubmodules, reposWithChanges := 0, 0, 0;
    var initialized, uninitialized, detached := 0, 0, 0;
    var i := 0;
    while i < |repos|
      invariant 0 <= i <= |repos|
      invariant totalRepos == MainCount(repos[..i]) && totalSubmodules == SubmoduleCount(repos[..i])
      invariant initialized == SubmodulesIn(repos[..i], Initialised)
      invariant uninitialized == SubmodulesIn(repos[..i], Uninitialised)
      invariant detached == SubmodulesIn(repos[..i], DetachedHead)
      invariant reposWithChanges == ChangedMains(repos[..i], changes)
    {
      var repo := repos[i];
      CountsSnoc(repos, i, changes);
      if repo.isSubmodule {
        totalSubmodules := totalSubmodules + 1;
        if repo.state == Initialised {
          initialized := initialized + 1;
        } else if repo.state == Uninitialised {
          uninitialized := uninitialized + 1;
        } else if repo.state == DetachedHead {
          detached := detached + 1;
        }
      } else {
        totalRepos := totalRepos + 1;
        if changes(repo.path) == Some(true) {
          reposWithChanges := reposWithChanges + 1;
        }
      }
      i := i + 1;
    }
    assert repos[..i] == repos;
    CountsPartition(repos, changes);
    c := StatusCounts(totalRepos, totalSubmodules, reposWithChanges, initialized, uninitialized, detached);
  }

  /** Over a listing from getRepositories there is exactly one main
      repository, and every submodule is in one of the three states. */
  lemma {:induction false} ListingCounts(basePath: string, hasSubmodules: bool, config: Option<string>,
                                         probe: string -> Workspace.Probe)
    ensures var repos := Listing(basePath, hasSubmodules, config, probe);
      MainCount(repos) == 1 && SubmoduleCount(repos) == |Listed(hasSubmodules, config)| &&
      SubmodulesIn(repos, Initialised) + SubmodulesIn(repos, Uninitialised) + SubmodulesIn(repos, DetachedHead)
        == SubmoduleCount(repos)
  {
    EntriesCounts(MainEntry(basePath), Entries(basePath, Listed(hasSubmodules, config), probe));
  }

  lemma {:induction false} EntriesCounts(main: RepoEntry, es: seq<RepoEntry>)
    requires !main.isSubmodule
    requires forall k :: 0 <= k < |es| ==> es[k].isSubmodule && es[k].state != Unchecked
    ensures var repos := [main] + es;
      MainCount(repos) == 1 && SubmoduleCount(repos) == |es| &&
      SubmodulesIn(repos, Initialised) + SubmodulesIn(repos, Uninitialised) + SubmodulesIn(repos, DetachedHead)
        == SubmoduleCount(repos)
  {
    if es != [] {
      var init := es[..|es| - 1];
      EntriesCounts(main, init);
      assert ([main] + es)[..|es|] == [main] + init;
    }
  }

  // ---------------------------------------------------------------------------
  // The handler object

  /** ButtonHandler with the global path-hash map it writes. */
  class ButtonHandler {
    /** `global.pathHashMap`: 16-digit hash to repository path. */
    var pathHashMap: map<string, string>
    /** `crypto.createHash('md5')...digest('hex')`. */
    const md5: string -> string

    /** `saved` is what `pathHashMap.json` holds, if it could be read. */
    constructor(saved: Option<map<string, string>>, md5: string -> string)
      ensures pathHashMap == (if saved.Some? then saved.value else map[])
      ensures this.md5 == md5
    {
      pathHashMap := if saved.Some? then saved.value else map[];
      this.md5 := md5;
    }

    /** ButtonHandler.mapRepoPath: stores `repoPath` under the first 16 digits
        of its MD5 digest and returns them. */
    method MapRepoPath(repoPath: string) returns (pathHash: string)
      requires IsMd5Hex(md5)
      modifies this
      ensures pathHash == md5(repoPath)[..16] && IsPathHash(pathHash)
      ensures pathHashMap == old(pathHashMap)[pathHash := repoPath]
      ensures GetRepoPath(pathHashMap, pathHash) == Some(repoPath)
    {
      pathHash := md5(repoPath)[..16];
      pathHashMap := pathHashMap[pathHash := repoPath];
    }

    /** handleShowCommitModal: the id of the modal it opens. A path longer
        than 32 characters is replaced by its hash, a shorter one kept. */
    method ShowCommitModalId(repoPath: string, panelId: string) returns (modalId: string)
      requires IsMd5Hex(md5)
      modifies this
      ensures |repoPath| > 32 ==>
        pathHashMap == old(pathHashMap)[md5(repoPath)[..16] := repoPath] &&
        modalId == CommitModalPrefix + md5(repoPath)[..16] + ":" + panelId
      ensures |repoPath| <= 32 ==>
        pathHashMap == old(pathHashMap) && modalId == CommitModalPrefix + repoPath + ":" + panelId
      // submitting the modal commits in the same repository
      ensures ':' !in panelId && (|repoPath| > 32 || !Truthy(GetRepoPath(pathHashMap, repoPath))) ==>
        ModalTarget(modalId, pathHashMap) == Some(repoPath)
    {
      var pathHash := repoPath;
      if |repoPath| > 32 {
        pathHash := MapRepoPath(repoPath);
      }
      modalId := CommitModalPrefix + pathHash + ":" + panelId;
      if ':' !in panelId {
        SplitJoin(CommitModalPrefix + pathHash, panelId);
        PrefixOf(CommitModalPrefix, pathHash);
        ReplacePrefix(CommitModalPrefix + pathHash, CommitModalPrefix);
      }
    }

    /** The action a button press with `customId` leads to. */
    method HandleButtonInteraction(customId: string) returns (a: Action)
      ensures ':' !in customId ==> a == InvalidFormat
      ensures ':' in customId ==> a == DispatchCorrected(SplitCustomId(customId).action, pathHashMap)
    {
      match SplitCustomId(customId)
      case NoColon =>
        a := InvalidFormat;
      case Parts(action, _) =>
        a := DispatchCorrected(action, pathHashMap);
    }
  }
}

=== FILE: inventory.dfy ===
/** The repository listing and the repository status of GitManager
    (src/utils/gitManager.js:96-168 and 619-705). */
module Inventory {
  import opened Wrappers
  import opened Text
  import opened Workspace
  import opened SubmoduleConfig
  import SubmoduleRepair

  /** The state a listing shows for a repository. `isDetachedHead` answers
      `false` instead of throwing, so the state 'erro ao verificar' is never
      produced and has no constructor here. */
  datatype RepoState =
    | Unchecked      // 'não verificado': the main repository
    | Uninitialised  // 'não inicializado': no `.git` entry in the submodule directory
    | Initialised    // 'inicializado'
    | DetachedHead   // 'detached HEAD'

  /** The text the source stores in the `status` field. */
  function StateLabel(s: RepoState): string {
    match s
    case Unchecked => "não verificado"
    case Uninitialised => "não inicializado"
    case Initialised => "inicializado"
    case DetachedHead => "detached HEAD"
  }

  /** Distinct states carry distinct labels, so the source's filters on the
      label count exactly the states. */
  lemma StateLabelInjective(a: RepoState, b: RepoState)
    ensures StateLabel(a) == StateLabel(b) ==> a == b
  {
  }

  /** The state of a submodule whose full path gets the answers `p`. */
  function SubmoduleState(p: Probe): RepoState {
    if !p.hasGitDir then Uninitialised
    else if p.detached then DetachedHead
    else Initialised
  }

  /** The state of one submodule: 'não inicializado' unless its directory
      holds a `.git` entry, then 'detached HEAD' or 'inicializado' as git reports. */
  method ProbeState(p: Probe) returns (state: RepoState)
    ensures state != Unchecked
    ensures state == Uninitialised <==> !p.hasGitDir
    ensures state == DetachedHead <==> p.hasGitDir && p.detached
  {
    state := Uninitialised;
    if p.hasGitDir {
      state := Initialised;
      if p.detached {
        state := DetachedHead;
      }
    }
  }

  // ---------------------------------------------------------------------------
  // getRepositories (src/utils/gitManager.js:96-168)

  /** One entry of the listing. */
  datatype RepoEntry = RepoEntry(
    name: string,
    path: string,
    isSubmodule: bool,
    parentPath: Option<string>,
    state: RepoState)

  /** The entry listed for a submodule of `basePath`. */
  function SubmoduleEntry(basePath: string, m: Submodule, probe: string -> Probe): RepoEntry {
    var full := SubmoduleRepair.FullPath(basePath, m);
    RepoEntry(SubmoduleRepair.DisplayName(m), full, true, Some(basePath), SubmoduleState(probe(full)))
  }

  /** The submodules a listing walks: the parsed `.gitmodules`, read only when
      `hasSubmodules` (the answer of `git config --get-regexp path`) holds. */
  function Listed(hasSubmodules: bool, config: Option<string>): seq<Submodule> {
    if hasSubmodules then ParsedSubmodules(config) else []
  }

  /** The entries listed for `subs`, in order. */
  function Entries(basePath: string, subs: seq<Submodule>, probe: string -> Probe): (r: seq<RepoEntry>)
    ensures |r| == |subs|
    ensures forall k :: 0 <= k < |subs| ==> r[k] == SubmoduleEntry(basePath, subs[k], probe)
  {
    if subs == [] then []
    else Entries(basePath, subs[..|subs| - 1], probe) + [SubmoduleEntry(basePath, subs[|subs| - 1], probe)]
  }

  lemma EntriesSnoc(basePath: string, subs: seq<Submodule>, i: nat, probe: string -> Probe)
    requires i < |subs|
    ensures Entries(basePath, subs[..i + 1], probe) == Entries(basePath, subs[..i], probe) + [SubmoduleEntry(basePath, subs[i], probe)]
  {
    assert subs[..i + 1][..i] == subs[..i];
  }

  /** The main repository's entry: named after the last segment of its path. */
  function MainEntry(basePath: string): RepoEntry {
    RepoEntry(Basename(basePath), basePath, false, None, Unchecked)
  }

  /** The listing getRepositories builds: the main repository, then its submodules. */
  function Listing(basePath: string, hasSubmodules: bool, config: Option<string>, probe: string -> Probe): seq<RepoEntry> {
    [MainEntry(basePath)] + Entries(basePath, Listed(hasSubmodules, config), probe)
  }

  /** GitManager.getRepositories for the base path `basePath`. */
  method GetRepositories(basePath: string, hasSubmodules: bool, config: Option<string>, probe: string -> Probe)
    returns (repos: seq<RepoEntry>)
    ensures repos == Listing(basePath, hasSubmodules, config, probe)
  {
    repos := [RepoEntry(Basename(basePath), basePath, false, None, Unchecked)];
    var subs: seq<Submodule> := [];
    if hasSubmodules {
      subs := GetSubmodules(config);
    }
    assert subs == Listed(hasSubmodules, config);
    var i := 0;
    while i < |subs|
      invariant 0 <= i <= |subs|
      invariant repos == [MainEntry(basePath)] + Entries(basePath, subs[..i], probe)
    {
      var m := subs[i];
      var full := Join(basePath, m.path);
      var state := ProbeState(probe(full));
      var entry := RepoEntry(OrElse(Some(m.nameSafe), m.name), full, true, Some(basePath), state);
      assert entry == SubmoduleEntry(basePath, m, probe);
      EntriesSnoc(basePath, subs, i, probe);
      repos := repos + [entry];
      i := i + 1;
    }
    assert subs[..i] == subs;
  }

  /** The listing holds the main repository first, alone outside the
      submodules, then one entry per parsed submodule in parse order. */
  lemma ListingShape(basePath: string, hasSubmodules: bool, config: Option<string>, probe: string -> Probe)
    ensures var repos := Listing(basePath, hasSubmodules, config, probe);
      |repos| == 1 + |Listed(hasSubmodules, config)| &&
      repos[0] == RepoEntry(Basename(basePath), basePath, false, None, Unchecked) &&
      repos[1..] == Entries(basePath, Listed(hasSubmodules, config), probe) &&
      forall k :: 0 <= k < |repos| ==> (repos[k].isSubmodule <==> k > 0)
  {
    var repos := Listing(basePath, hasSubmodules, config, probe);
    assert repos[1..] == Entries(basePath, Listed(hasSubmodules, config), probe);
  }

  /** Each submodule entry carries the display name and the full path of its
      submodule and the main repository as parent; it is 'não inicializado'
      exactly when its directory has no `.git` entry, and 'detached HEAD'
      exactly when git reports a detached HEAD there. */
  lemma EntriesDescribeSubmodules(basePath: string, subs: seq<Submodule>, probe: string -> Probe)
    ensures var es := Entries(basePath, subs, probe);
      forall k :: 0 <= k < |subs| ==>
        es[k].name == SubmoduleRepair.DisplayName(subs[k]) &&
        es[k].path == Join(basePath, subs[k].path) &&
        es[k].isSubmodule && es[k].parentPath == Some(basePath) &&
        (es[k].state == Uninitialised <==> !probe(es[k].path).hasGitDir) &&
        (es[k].state == DetachedHead <==> probe(es[k].path).hasGitDir && probe(es[k].path).detached)
  {
  }

  // ---------------------------------------------------------------------------
  // getRepositoryStatus (src/utils/gitManager.js:619-705)

  /** What `git status` answers: the current branch, detached or not, and the
      number of changed files. */
  datatype GitStatus = GitStatus(current: Option<string>, detached: bool, changedFiles: nat)

  /** One entry of `submodulesStatus.submodules`; its path is the relative one. */
  datatype SubmoduleInfo = SubmoduleInfo(name: string, path: string, state: RepoState)

  datatype SubmodulesSummary = SubmodulesSummary(
    total: nat,
    initialized: nat,
    detached: nat,
    error: nat,
    submodules: seq<SubmoduleInfo>)

  datatype RepositoryStatus = RepositoryStatus(
    name: string,
    path: string,
    branch: Option<string>,
    isDetached: bool,
    hasChanges: bool,
    changesCount: nat,
    hasSubmodules: bool,
    submodulesStatus: Option<SubmodulesSummary>)

  /** The status entry of one submodule of `repoPath`. */
  function Info(repoPath: string, m: Submodule, probe: string -> Probe): SubmoduleInfo {
    SubmoduleInfo(SubmoduleRepair.DisplayName(m), m.path, SubmoduleState(probe(SubmoduleRepair.FullPath(repoPath, m))))
  }

  /** The status entries of `subs`, in order. */
  function Infos(repoPath: string, subs: seq<Submodule>, probe: string -> Probe): (r: seq<SubmoduleInfo>)
    ensures |r| == |subs|
    ensures forall k :: 0 <= k < |subs| ==> r[k] == Info(repoPath, subs[k], probe)
  {
    if subs == [] then []
    else Infos(repoPath, subs[..|subs| - 1], probe) + [Info(repoPath, subs[|subs| - 1], probe)]
  }

  /** `filter(s => s.status !== 'não inicializado').length`. */
  function CountInitialized(infos: seq<SubmoduleInfo>): nat {
    if infos == [] then 0
    else CountInitialized(infos[..|infos| - 1]) + (if infos[|infos| - 1].state != Uninitialised then 1 else 0)
  }

  /** `filter(s => s.status === 'detached HEAD').length`. */
  function CountDetached(infos: seq<SubmoduleInfo>): nat {
    if infos == [] then 0
    else CountDetached(infos[..|infos| - 1]) + (if infos[|infos| - 1].state == DetachedHead then 1 else 0)
  }

  /** Detached submodules are initialised ones, and there are no more
      initialised submodules than submodules. */
  lemma {:induction false} SummaryOrdered(infos: seq<SubmoduleInfo>)
    ensures CountDetached(infos) <= CountInitialized(infos) <= |infos|
  {
    if infos != [] {
      SummaryOrdered(infos[..|infos| - 1]);
    }
  }

  /** The status summary and the batch repair see the same submodules: the
      initialised ones are those the batch does not skip, and the detached
      ones are those it counts in `total`. */
  lemma {:induction false} SummaryAgreesWithBatch(repoPath: string, subs: seq<Submodule>, probe: string -> Probe)
    ensures var infos := Infos(repoPath, subs, probe);
      var fates := SubmoduleRepair.Fates(repoPath, subs, probe);
      CountInitialized(infos) + SubmoduleRepair.CountSkipped(fates) == |subs| &&
      CountDetached(infos) == SubmoduleRepair.CountTotal(fates)
  {
    if subs != [] {
      var init := subs[..|subs| - 1];
      SummaryAgreesWithBatch(repoPath, init, probe);
      var fates := SubmoduleRepair.Fates(repoPath, subs, probe);
      var infos := Infos(repoPath, subs, probe);
      assert fates[..|fates| - 1] == SubmoduleRepair.Fates(repoPath, init, probe);
      assert infos[..|infos| - 1] == Infos(repoPath, init, probe);
    }
  }

  const StatusErrorPrefix: string := "Erro ao obter status do repositório: "

  /** GitManager.getRepositoryStatus for `repoPath`, where `status` is the
      answer of `git status` (an error is rethrown with a prefix). */
  method GetRepositoryStatus(repoPath: string, status: Result<GitStatus>, hasSubmodules: bool,
                             config: Option<string>, probe: string -> Probe)
    returns (r: Result<RepositoryStatus>)
    ensures status.Err? <==> r.Err?
    ensures status.Err? ==> r.error == StatusErrorPrefix + status.error
    ensures r.Ok? ==>
      var st := r.value;
      st.name == Basename(repoPath) && st.path == repoPath &&
      st.branch == status.value.current && st.isDetached == status.value.detached &&
      st.changesCount == status.value.changedFiles && (st.hasChanges <==> st.changesCount > 0) &&
      st.hasSubmodules == hasSubmodules && (st.submodulesStatus.Some? <==> hasSubmodules)
    ensures r.Ok? && hasSubmodules ==>
      var sum := r.value.submodulesStatus.value;
      var subs := ParsedSubmodules(config);
      sum.total == |subs| && sum.submodules == Infos(repoPath, subs, probe) &&
      sum.initialized == CountInitialized(sum.submodules) && sum.detached == CountDetached(sum.submodules) &&
      sum.error == 0 && sum.detached <= sum.initialized <= sum.total
  {
    if status.Err? {
      return Err(StatusErrorPrefix + status.error);
    }
    var st := status.value;
    var summary: Option<SubmodulesSummary> := None;
    if hasSubmodules {
      var subs := GetSubmodules(config);
      var infos: seq<SubmoduleInfo> := [];
      var i := 0;
      while i < |subs|
        invariant 0 <= i <= |subs|
        invariant infos == Infos(repoPath, subs[..i], probe)
      {
        var m := subs[i];
        var full := Join(repoPath, m.path);
        var state := ProbeState(probe(full));
        assert subs[..i + 1][..i] == subs[..i];
        infos := infos + [SubmoduleInfo(OrElse(Some(m.nameSafe), m.name), m.path, state)];
        i := i + 1;
      }
      assert subs[..i] == subs;
      SummaryOrdered(infos);
      summary := Some(SubmodulesSummary(|subs|, CountInitialized(infos), CountDetached(infos), 0, infos));
    }
    r := Ok(RepositoryStatus(Basename(repoPath), repoPath, st.current, st.detached,
                             st.changedFiles > 0, st.changedFiles, hasSubmodules, summary));
  }
}

=== FILE: panels.dfy ===
/** The registry of active control panels (src/services/panelService.js). */
module Panels {
  import opened Wrappers
  import Buttons
  import Text

  /** One hundred years of 365 days, in milliseconds. */
  const ExpirationTime: nat := 100 * 365 * 24 * 60 * 60 * 1000

  /** An entry of `activePanels`; `messageId` is null until registered. */
  datatype Panel = Panel(
    messageId: Option<string>,
    channelId: string,
    userId: string,
    createdAt: int,
    expiresAt: int)

  /** A template literal prints an unset panel id as "undefined". */
  function IdText(panelId: Option<string>): string {
    if panelId.Some? then panelId.value else "undefined"
  }

  /** The custom ids of the three panel buttons, in order. */
  function ButtonIds(panelId: string): (ids: seq<string>)
    ensures |ids| == 3
  {
    ["list-repos:" + panelId, "sync-all:" + panelId, "status-all:" + panelId]
  }

  /** With a colon-free panel id, the three buttons split back into their
      action and the panel. */
  lemma PanelButtonsSplit(panelId: string)
    requires ':' !in panelId
    ensures var ids := ButtonIds(panelId);
      Buttons.SplitCustomId(ids[0]) == Buttons.Parts("list-repos", panelId) &&
      Buttons.SplitCustomId(ids[1]) == Buttons.Parts("sync-all", panelId) &&
      Buttons.SplitCustomId(ids[2]) == Buttons.Parts("status-all", panelId)
  {
    var ids := ButtonIds(panelId);
    assert ids[0] == "list-repos" + ":" + panelId;
    assert ids[1] == "sync-all" + ":" + panelId;
    assert ids[2] == "status-all" + ":" + panelId;
    Buttons.SplitJoin("list-repos", panelId);
    Buttons.SplitJoin("sync-all", panelId);
    Buttons.SplitJoin("status-all", panelId);
  }

  /** Both dispatches send the panel buttons to the listing, the update of
      all repositories and the overall status. */
  lemma PanelButtonsRoute(m: map<string, string>)
    ensures Buttons.Dispatch("list-repos", m) == Buttons.ListRepos == Buttons.DispatchCorrected("list-repos", m)
    ensures Buttons.Dispatch("sync-all", m) == Buttons.UpdateAll == Buttons.DispatchCorrected("sync-all", m)
    ensures Buttons.Dispatch("status-all", m) == Buttons.StatusAll == Buttons.DispatchCorrected("status-all", m)
  {
    ExactDispatch("list-repos", m);
    ExactDispatch("sync-all", m);
    ExactDispatch("status-all", m);
  }

  lemma ExactDispatch(a: string, m: map<string, string>)
    requires a in {"list-repos", "sync-all", "status-all"}
    ensures Buttons.Dispatch(a, m) == Buttons.ExactAction(a).value == Buttons.DispatchCorrected(a, m)
  {
    assert !Text.StartsWith(a, Buttons.FixAllPrefix) && !Buttons.HashRule(a);
    assert Buttons.ExactAction(a).Some?;
  }

  /** PanelService: the active panels by id and the id of the last panel created. */
  class PanelService {
    var activePanels: map<string, Panel>
    var panelId: Option<string>

    constructor()
      ensures activePanels == map[] && panelId == None
    {
      activePanels := map[];
      panelId := None;
    }

    /** isPanelActive. */
    predicate IsPanelActive(id: string)
      reads this
    {
      id in activePanels
    }

    /** getPanel: the entry, or null. */
    function GetPanel(id: string): (r: Option<Panel>)
      reads this
      ensures r.Some? <==> IsPanelActive(id)
      ensures r.Some? ==> r.value == activePanels[id]
    {
      if id in activePanels then Some(activePanels[id]) else None
    }

    /** createPanelButtons: the ids of the buttons of the current panel. */
    function CreatePanelButtons(): (ids: seq<string>)
      reads this
      ensures |ids| == 3
      // a button click names its action and, for a colon-free id, this panel
      ensures ':' !in IdText(panelId) ==>
        Buttons.SplitCustomId(ids[0]) == Buttons.Parts("list-repos", IdText(panelId)) &&
        Buttons.SplitCustomId(ids[1]) == Buttons.Parts("sync-all", IdText(panelId)) &&
        Buttons.SplitCustomId(ids[2]) == Buttons.Parts("status-all", IdText(panelId))
    {
      var t := IdText(panelId);
      if ':' in t then ButtonIds(t) else PanelButtonsSplit(t); ButtonIds(t)
    }

    /** createGitPanel: `freshId` is the random id generated, `now1` and
        `now2` the two clock readings of the entry. Returns the new id and
        the ids of its buttons. */
    method CreateGitPanel(channelId: string, userId: string, freshId: string, now1: int, now2: int)
      returns (id: string, buttonIds: seq<string>)
      requires now1 <= now2
      modifies this
      ensures id == freshId && panelId == Some(freshId)
      ensures activePanels == old(activePanels)[freshId := Panel(None, channelId, userId, now1, now2 + ExpirationTime)]
      ensures IsPanelActive(freshId) && activePanels[freshId].messageId.None?
      ensures activePanels[freshId].expiresAt >= activePanels[freshId].createdAt + ExpirationTime
      ensures freshId !in old(activePanels) ==> |activePanels.Keys| == |old(activePanels).Keys| + 1
      ensures buttonIds == ButtonIds(freshId)
    {
      panelId := Some(freshId);
      buttonIds := CreatePanelButtons();
      activePanels := activePanels[freshId := Panel(None, channelId, userId, now1, now2 + ExpirationTime)];
      id := freshId;
      assert activePanels.Keys == old(activePanels).Keys + {freshId};
    }

    /** registerMessageId: only the message id of an existing entry changes. */
    method RegisterMessageId(id: string, messageId: string)
      modifies this
      ensures id in old(activePanels) ==>
        activePanels == old(activePanels)[id := old(activePanels)[id].(messageId := Some(messageId))]
      ensures id !in old(activePanels) ==> activePanels == old(activePanels)
      ensures activePanels.Keys == old(activePanels).Keys && panelId == old(panelId)
    {
      if id in activePanels {
        var panel := activePanels[id];
        activePanels := activePanels[id := panel.(messageId := Some(messageId))];
      }
    }

    /** expirePanel: the entry is deleted; an unknown id changes nothing. */
    method ExpirePanel(id: string)
      modifies this
      ensures activePanels == old(activePanels) - {id}
      ensures id !in old(activePanels) ==> activePanels == old(activePanels)
      ensures !IsPanelActive(id) && panelId == old(panelId)
      ensures forall k :: k != id ==> (IsPanelActive(k) <==> old(IsPanelActive(k)))
    {
      if id !in activePanels {
        return;
      }
      activePanels := activePanels - {id};
    }

    /** removePanel: the entry is deleted. */
    method RemovePanel(id: string)
      modifies this
      ensures activePanels == old(activePanels) - {id}
      ensures !IsPanelActive(id) && panelId == old(panelId)
      ensures forall k :: k != id ==> (IsPanelActive(k) <==> old(IsPanelActive(k)))
    {
      activePanels := activePanels - {id};
    }
  }
}

=== FILE: pull_reconciler.dfy ===
/** GitManager.pullRepository and the submodule guards it relies on
    (GitManager.updateSubmodules, GitManager.initSubmodules). */
module PullReconciler {
  import opened Wrappers
  import opened Text
  import opened Workspace

  /** How a dirty working tree is handled. */
  datatype Mode = Normal | Stash | Force

  /** `pullResult.summary` of simple-git. */
  datatype PullSummary = PullSummary(changes: nat, insertions: nat, deletions: nat)

  const NoChanges: PullSummary := PullSummary(0, 0, 0)

  /** `git branch`: the current branch and its upstream, if one is configured. */
  datatype BranchInfo = BranchInfo(current: string, upstream: Option<string>)

  /** What git answers to each command one call of pullRepository may issue. */
  datatype PullOracle = PullOracle(
    status: Result<bool>,            // git status: Ok(isClean())
    stashSave: Outcome,              // git stash save
    detached: bool,                  // isDetachedHead (a failed status reads as false)
    branches: Result<seq<string>>,   // git branch, asked by the detached-HEAD repair: `all`
    branchInfo: Result<BranchInfo>,  // git branch, asked after the repair
    pull: Result<PullSummary>,       // git pull
    pullNoRebase: Result<PullSummary>, // git pull --no-rebase
    fetch: Outcome,                  // git fetch --all
    resetOk: set<string>,            // targets `git reset --hard` succeeds for
    resetError: string,              // the message of a failed reset
    stashPop: Outcome,               // git stash pop
    hasSubmodules: bool,             // git config --file .gitmodules --get-regexp path is non-empty
    submoduleUpdate: Outcome)        // git submodule update --init --recursive

  /** What one call returns (or throws). */
  datatype PullOutcome =
    | HasChanges                     // 'STATUS_HAS_CHANGES'
    | Updated(summary: PullSummary)
    | NoValidRemoteBranch
    | BranchError(message: string)
    | StashConflict(stashName: string)
    | SubmoduleError(message: string)
    | Raised(message: string)        // the Error thrown out of pullRepository

  const HasChangesSentinel: string := "STATUS_HAS_CHANGES"
  const RemoteRefMissing: string := "couldn't find remote ref"
  const PullFailurePrefix: string := "Erro ao atualizar repositório: "
  const SubmoduleFailurePrefix: string := "Erro ao atualizar submódulos: "

  function StashName(stamp: string): string {
    "stash_before_pull_" + stamp
  }

  function TempBranch(stamp: string): string {
    "temp-branch-" + stamp
  }

  function Origin(branch: string): string {
    "origin/" + branch
  }

  /** The working tree has uncommitted changes. */
  predicate Dirty(o: PullOracle) {
    o.status.Ok? && !o.status.value
  }

  /** The call gets past the dirty-tree gate and the stash save. */
  predicate PassesGate(o: PullOracle, mode: Mode) {
    o.status.Ok? && !(Dirty(o) && mode == Normal) && !(Dirty(o) && mode == Stash && o.stashSave.Fail?)
  }

  /** The call reaches the no-upstream branch with `git fetch --all` succeeding. */
  predicate NoUpstreamFetched(o: PullOracle, mode: Mode) {
    PassesGate(o, mode) && NoUpstream(o) && o.fetch.Pass?
  }

  /** The call reaches `git pull` on a branch with an upstream. */
  predicate UpstreamPull(o: PullOracle, mode: Mode) {
    PassesGate(o, mode) && HasUpstream(o)
  }

  // ---------------------------------------------------------------------------
  // Detached-HEAD repair (src/utils/gitManager.js:264-288)

  /** Branches that are neither remote-tracking nor the `HEAD` pseudo-branch, in order. */
  function LocalBranches(all: seq<string>): (r: seq<string>)
    ensures forall k :: 0 <= k < |r| ==> r[k] in all && !StartsWith(r[k], "remotes/") && r[k] != "HEAD"
    ensures forall b :: b in all && !StartsWith(b, "remotes/") && b != "HEAD" ==> b in r
    ensures r != [] ==> r[0] == FirstLocal(all)
  {
    if all == [] then []
    else if !StartsWith(all[0], "remotes/") && all[0] != "HEAD" then [all[0]] + LocalBranches(all[1..])
    else LocalBranches(all[1..])
  }

  /** The first entry of `all` that is a local branch (only meaningful when there is one). */
  function FirstLocal(all: seq<string>): string {
    if all == [] then ""
    else if !StartsWith(all[0], "remotes/") && all[0] != "HEAD" then all[0]
    else FirstLocal(all[1..])
  }

  /** Remote-tracking branches, in order. */
  function RemoteBranches(all: seq<string>): (r: seq<string>)
    ensures forall k :: 0 <= k < |r| ==> r[k] in all && StartsWith(r[k], "remotes/")
    ensures forall b :: b in all && StartsWith(b, "remotes/") ==> b in r
  {
    if all == [] then []
    else if StartsWith(all[0], "remotes/") then [all[0]] + RemoteBranches(all[1..])
    else RemoteBranches(all[1..])
  }

  /** `branches.find(b => b === 'main' || b === 'master')`. */
  function FindMainOrMaster(bs: seq<string>): (r: Option<string>)
    ensures r.Some? ==> (r.value == "main" || r.value == "master") && r.value in bs
    ensures r.None? <==> "main" !in bs && "master" !in bs
  {
    if bs == [] then None
    else if bs[0] == "main" || bs[0] == "master" then Some(bs[0])
    else FindMainOrMaster(bs[1..])
  }

  /** `name.replace(/^remotes\/[^\/]+\//, '')`. */
  function StripRemotePrefix(s: string): string {
    if !StartsWith(s, "remotes/") then s
    else
      match IndexOfChar(s[8..], '/')
      case Some(k) => if k >= 1 then s[8 + k + 1..] else s
      case None => s
  }

  /** `remotes/<remote>/<branch>` becomes `<branch>`, whatever `<branch>` holds. */
  lemma StripRemotePrefixOf(remote: string, branch: string)
    requires |remote| >= 1 && '/' !in remote
    ensures StripRemotePrefix("remotes/" + remote + "/" + branch) == branch
  {
    var s := "remotes/" + remote + "/" + branch;
    assert s[..8] == "remotes/";
    assert s[8..] == remote + "/" + branch;
    var rest := s[8..];
    assert rest[|remote|] == '/';
    assert rest[..|remote|] == remote;
    var k := IndexOfChar(rest, '/');
    assert k.Some? && k.value == |remote| by {
      assert '/' in rest;
    }
    assert s[8 + |remote| + 1..] == branch;
  }

  /** The checkout the repair issues, given `git branch`'s list:
      a local `main` or `master` (whichever comes first), else the first local
      branch; else a branch made from the first remote-tracking branch; else a
      new temporary branch. */
  function RepairOp(all: seq<string>, stamp: string): GitOp
  {
    var local := LocalBranches(all);
    if |local| > 0 then
      match FindMainOrMaster(local)
      case Some(b) => Checkout(b)
      case None => Checkout(local[0])
    else
      var remote := RemoteBranches(all);
      if |remote| > 0 then CheckoutNew(StripRemotePrefix(remote[0]), Some(remote[0]))
      else CheckoutNew(TempBranch(stamp), None)
  }

  /** The repair's preference order: a local main or master, else the first
      local branch, else a branch made from the first remote-tracking branch,
      else a temporary branch; it always checks something out. */
  lemma RepairOpSpec(all: seq<string>, stamp: string)
    ensures RepairOp(all, stamp).IsCheckout()
    ensures RepairOp(all, stamp).Checkout? <==> LocalBranches(all) != []
    ensures var op := RepairOp(all, stamp);
      op.Checkout? ==> op.branch in all && !StartsWith(op.branch, "remotes/") && op.branch != "HEAD"
    ensures var op := RepairOp(all, stamp);
      op.Checkout? && ("main" in all || "master" in all) ==> op.branch == "main" || op.branch == "master"
    ensures var op := RepairOp(all, stamp);
      op.Checkout? && "main" !in all && "master" !in all ==> op.branch == FirstLocal(all)
    ensures var op := RepairOp(all, stamp);
      op.CheckoutNew? && op.start.Some? ==>
        LocalBranches(all) == [] && op.start.value in all && StartsWith(op.start.value, "remotes/") &&
        op.branch == StripRemotePrefix(op.start.value)
    ensures RepairOp(all, stamp) == CheckoutNew(TempBranch(stamp), None) <==>
      LocalBranches(all) == [] && RemoteBranches(all) == []
  {
  }

  // ---------------------------------------------------------------------------
  // The no-upstream fallback (src/utils/gitManager.js:321-343)

  /** The reset targets tried against `bs`, in order, stopping after the first
      one that succeeds. */
  function ResetChain(bs: seq<string>, ok: set<string>): (r: seq<string>)
    ensures |r| <= |bs|
  {
    if bs == [] then []
    else [Origin(bs[0])] + (if Origin(bs[0]) in ok then [] else ResetChain(bs[1..], ok))
  }

  /** Some common branch can be reset to. */
  predicate AnyResettable(bs: seq<string>, ok: set<string>) {
    exists k :: 0 <= k < |bs| && Origin(bs[k]) in ok
  }

  /** The chain tries the targets of `bs` in order, and every target before
      its last one fails. */
  lemma {:induction false} ResetChainOrder(bs: seq<string>, ok: set<string>)
    ensures var r := ResetChain(bs, ok);
      (forall k :: 0 <= k < |r| ==> r[k] == Origin(bs[k])) &&
      (forall k :: 0 <= k < |r| - 1 ==> r[k] !in ok)
  {
    if bs != [] {
      ResetChainOrder(bs[1..], ok);
    }
  }

  /** The chain ends in a success exactly when some target of `bs` can be
      reset to; otherwise every target is tried. */
  lemma {:induction false} ResetChainSucceeds(bs: seq<string>, ok: set<string>)
    ensures var r := ResetChain(bs, ok);
      (AnyResettable(bs, ok) <==> r != [] && r[|r| - 1] in ok) &&
      (!AnyResettable(bs, ok) ==> |r| == |bs|)
  {
    if bs != [] {
      ResetChainSucceeds(bs[1..], ok);
      if Origin(bs[0]) !in ok {
        assert AnyResettable(bs, ok) <==> AnyResettable(bs[1..], ok) by {
          if AnyResettable(bs, ok) {
            var k :| 0 <= k < |bs| && Origin(bs[k]) in ok;
            assert k > 0 && Origin(bs[1..][k - 1]) in ok;
          }
          if AnyResettable(bs[1..], ok) {
            var k :| 0 <= k < |bs[1..]| && Origin(bs[1..][k]) in ok;
            assert Origin(bs[k + 1]) in ok;
          }
        }
      } else {
        assert Origin(bs[0]) in ok;
      }
    }
  }

  /** The resets the loop issues after `i` iterations, as git commands. */
  function ResetOps(bs: seq<string>): (r: seq<GitOp>)
    ensures |r| == |bs|
    ensures forall k :: 0 <= k < |bs| ==> r[k] == ResetHard(Origin(bs[k]))
  {
    if bs == [] then [] else [ResetHard(Origin(bs[0]))] + ResetOps(bs[1..])
  }

  /** The targets of the `git reset --hard` commands in `ops`, in order. */
  function Resets(ops: seq<GitOp>): seq<string> {
    if ops == [] then []
    else (if ops[0].ResetHard? then [ops[0].target] else []) + Resets(ops[1..])
  }

  lemma {:induction false} ResetsAppend(a: seq<GitOp>, b: seq<GitOp>)
    ensures Resets(a + b) == Resets(a) + Resets(b)
  {
    if a == [] {
      assert a + b == b;
    } else {
      var head := if a[0].ResetHard? then [a[0].target] else [];
      assert (a + b)[0] == a[0];
      assert (a + b)[1..] == a[1..] + b;
      ResetsAppend(a[1..], b);
      calc {
        Resets(a + b);
        head + Resets(a[1..] + b);
        head + (Resets(a[1..]) + Resets(b));
        (head + Resets(a[1..])) + Resets(b);
        Resets(a) + Resets(b);
      }
    }
  }

  lemma {:induction false} ResetsNone(ops: seq<GitOp>)
    requires forall k :: 0 <= k < |ops| ==> !ops[k].ResetHard?
    ensures Resets(ops) == []
  {
    if ops != [] {
      ResetsNone(ops[1..]);
    }
  }

  /** The loop's resets after it stops at iteration `i` are the chain. */
  lemma {:induction false} ChainIsPrefix(bs: seq<string>, ok: set<string>, i: nat)
    requires i <= |bs|
    requires forall j :: 0 <= j < i - 1 ==> Origin(bs[j]) !in ok
    requires (i >= 1 && Origin(bs[i - 1]) in ok) || (i == |bs| && (i == 0 || Origin(bs[i - 1]) !in ok))
    ensures Resets(ResetOps(bs[..i])) == ResetChain(bs, ok)
    decreases i
  {
    if i == 0 {
      assert bs == [];
    } else {
      assert ResetOps(bs[..i]) == [ResetHard(Origin(bs[0]))] + ResetOps(bs[1..][..i - 1]) by {
        assert bs[..i][1..] == bs[1..][..i - 1];
      }
      assert Resets(ResetOps(bs[..i])) == [Origin(bs[0])] + Resets(ResetOps(bs[1..][..i - 1]));
      if i == 1 {
        if Origin(bs[0]) !in ok {
          assert bs[1..] == [];
        }
      } else {
        ChainIsPrefix(bs[1..], ok, i - 1);
      }
    }
  }

  // ---------------------------------------------------------------------------
  // Submodule guards (src/utils/gitManager.js:376-414)

  /** What updateSubmodules / initSubmodules return or throw. */
  datatype SubmoduleCommand = NoSubmodulesDeclared | Completed | CommandFailed(message: string)

  /** GitManager.updateSubmodules: a repository without submodules is answered,
      not failed; otherwise `git submodule update --init --recursive` is issued. */
  method UpdateSubmodules(hasSubmodules: bool, update: Outcome) returns (r: SubmoduleCommand, ops: seq<GitOp>)
    ensures r == NoSubmodulesDeclared <==> !hasSubmodules
    ensures !hasSubmodules ==> ops == []
    ensures hasSubmodules ==> ops == [SubmoduleUpdate(true)]
    ensures hasSubmodules ==> (r == Completed <==> update.Pass?)
    ensures r.CommandFailed? ==> hasSubmodules && update.Fail? && r.message == SubmoduleFailurePrefix + update.error
  {
    if !hasSubmodules {
      return NoSubmodulesDeclared, [];
    }
    ops := [SubmoduleUpdate(true)];
    if update.Fail? {
      return CommandFailed(SubmoduleFailurePrefix + update.error), ops;
    }
    r := Completed;
  }

  /** GitManager.initSubmodules: `git submodule init`, then a plain
      `git submodule update` only when the init succeeded. */
  method InitSubmodules(hasSubmodules: bool, init: Outcome, update: Outcome) returns (r: SubmoduleCommand, ops: seq<GitOp>)
    ensures !hasSubmodules ==> r == NoSubmodulesDeclared && ops == []
    ensures hasSubmodules && init.Fail? ==> ops == [SubmoduleInit] && r == CommandFailed("Erro ao inicializar submódulos: " + init.error)
    ensures hasSubmodules && init.Pass? ==> ops == [SubmoduleInit, SubmoduleUpdate(false)]
    ensures r == Completed <==> hasSubmodules && init.Pass? && update.Pass?
  {
    if !hasSubmodules {
      return NoSubmodulesDeclared, [];
    }
    ops := [SubmoduleInit];
    if init.Fail? {
      return CommandFailed("Erro ao inicializar submódulos: " + init.error), ops;
    }
    ops := ops + [SubmoduleUpdate(false)];
    if update.Fail? {
      return CommandFailed("Erro ao inicializar submódulos: " + update.error), ops;
    }
    r := Completed;
  }

  // ---------------------------------------------------------------------------
  // pullRepository (src/utils/gitManager.js:238-373)

  /** What the remote-synchronisation step (src/utils/gitManager.js:295-348) ends in. */
  datatype SyncOutcome = Synced(summary: PullSummary) | NoValidRemote | SyncFailed(message: string)

  /** What the synchronisation on a branch with an upstream ends in: the pull,
      the --no-rebase retry on a missing remote ref, then fetch and a hard
      reset to origin/<current>; an error of the fallback is turned into a
      failure message by the enclosing catch. */
  function UpstreamResult(o: PullOracle, current: string): SyncOutcome {
    if o.pull.Ok? then Synced(o.pull.value)
    else if !Contains(o.pull.error, RemoteRefMissing) then SyncFailed(o.pull.error)
    else if o.pullNoRebase.Ok? then Synced(o.pullNoRebase.value)
    else if o.fetch.Fail? then SyncFailed(o.fetch.error)
    else if Origin(current) !in o.resetOk then SyncFailed(o.resetError)
    else Synced(NoChanges)
  }

  /** What the synchronisation ends in, by the branch information read. */
  function SyncResult(o: PullOracle): SyncOutcome {
    if o.branchInfo.Err? then SyncFailed(o.branchInfo.error)
    else if Truthy(o.branchInfo.value.upstream) then UpstreamResult(o, o.branchInfo.value.current)
    else if o.fetch.Fail? then SyncFailed(o.fetch.error)
    else if AnyResettable(CommonBranches, o.resetOk) then Synced(NoChanges)
    else NoValidRemote
  }

  /** What one call of pullRepository returns or throws, as a decision over the
      answers of git: the status and the dirty-tree gate, the stash save, the
      synchronisation, the stash pop and the submodule update, in that order.
      The detached-HEAD repair does not appear: its failures are swallowed. */
  function PullResult(o: PullOracle, includeSubmodules: bool, mode: Mode, stamp: string): PullOutcome {
    match GateStop(o, mode)
    case Some(stop) => stop
    case None => SyncedResult(o, includeSubmodules, Dirty(o) && mode == Stash, stamp, SyncResult(o))
  }

  /** Where the call ends before the synchronisation: a failed status, the
      dirty-tree sentinel, or a failed stash save; `None` when it goes on. */
  function GateStop(o: PullOracle, mode: Mode): Option<PullOutcome> {
    if o.status.Err? then Some(Raised(PullFailurePrefix + o.status.error))
    else if Dirty(o) && mode == Normal then Some(HasChanges)
    else if Dirty(o) && mode == Stash && o.stashSave.Fail? then Some(Raised(PullFailurePrefix + o.stashSave.error))
    else None
  }

  /** The outcome once the synchronisation ended in `sync`: the stash pop when
      `popStash`, then the submodule update on request. */
  function SyncedResult(o: PullOracle, includeSubmodules: bool, popStash: bool, stamp: string, sync: SyncOutcome): PullOutcome {
    match sync
    case NoValidRemote => NoValidRemoteBranch
    case SyncFailed(m) => BranchError(m)
    case Synced(summary) =>
      if popStash && o.stashPop.Fail? then StashConflict(StashName(stamp))
      else if includeSubmodules && o.hasSubmodules && o.submoduleUpdate.Fail? then
        SubmoduleError(SubmoduleFailurePrefix + o.submoduleUpdate.error)
      else Updated(summary)
  }

  /** pullRepository throws only when `git status` or the stash save fails;
      every other failure is answered with a message. */
  lemma RaisedOnlyBeforeSync(o: PullOracle, includeSubmodules: bool, mode: Mode, stamp: string)
    ensures PullResult(o, includeSubmodules, mode, stamp).Raised? <==>
      o.status.Err? || (Dirty(o) && mode == Stash && o.stashSave.Fail?)
  {
  }

  /** Commands that may precede the synchronisation: the stash save and the repair checkout. */
  /** What the outcome of pullRepository says about the answers it got. */
  lemma PullResultSpec(o: PullOracle, includeSubmodules: bool, mode: Mode, stamp: string)
    // a failed status throws
    ensures o.status.Err? ==> PullResult(o, includeSubmodules, mode, stamp) == Raised(PullFailurePrefix + o.status.error)
    // dirty tree and mode normal: the sentinel
    ensures PullResult(o, includeSubmodules, mode, stamp).HasChanges? <==> Dirty(o) && mode == Normal
    // a dirty tree whose stash save fails throws
    ensures o.status.Ok? && Dirty(o) && mode == Stash && o.stashSave.Fail? ==>
      PullResult(o, includeSubmodules, mode, stamp) == Raised(PullFailurePrefix + o.stashSave.error)
    // no upstream and no common branch to reset to
    ensures PullResult(o, includeSubmodules, mode, stamp).NoValidRemoteBranch? <==>
      NoUpstreamFetched(o, mode) && !AnyResettable(CommonBranches, o.resetOk)
    // upstream: only a "couldn't find remote ref" error leads to the --no-rebase retry
    ensures UpstreamPull(o, mode) && o.pull.Err? && !Contains(o.pull.error, RemoteRefMissing) ==>
      PullResult(o, includeSubmodules, mode, stamp) == BranchError(o.pull.error)
    // a submodule failure is reported, and only when submodules were requested
    ensures PullResult(o, includeSubmodules, mode, stamp).SubmoduleError? ==> includeSubmodules
  {
  }

  predicate PreludeOp(op: GitOp) {
    op.StashSave? || op.IsCheckout()
  }

  /** Commands the synchronisation itself issues. */
  predicate SyncOp(op: GitOp) {
    op == Pull || op == PullNoRebase || op == FetchAll || op.ResetHard?
  }

  /** Commands that may follow it: the stash pop and the submodule update. */
  predicate EpilogueOp(op: GitOp) {
    op == StashPop || op.SubmoduleUpdate?
  }

  /** The prelude's checkouts precede every pull and reset of the trace. */
  lemma PhasesCheckoutsFirst(pre: seq<GitOp>, mid: seq<GitOp>, post: seq<GitOp>)
    requires forall k :: 0 <= k < |pre| ==> PreludeOp(pre[k])
    requires forall k :: 0 <= k < |mid| ==> SyncOp(mid[k])
    requires forall k :: 0 <= k < |post| ==> EpilogueOp(post[k])
    ensures CheckoutsFirst(pre + mid + post)
  {
    var ops := pre + mid + post;
    forall i, j | 0 <= i < j < |ops| && ops[i].IsRemoteSync()
      ensures !ops[j].IsCheckout()
    {
      assert i >= |pre|;
    }
  }

  /** Only the synchronisation resets. */
  lemma PhasesResets(pre: seq<GitOp>, mid: seq<GitOp>, post: seq<GitOp>)
    requires forall k :: 0 <= k < |pre| ==> PreludeOp(pre[k])
    requires forall k :: 0 <= k < |post| ==> EpilogueOp(post[k])
    ensures Resets(pre + mid + post) == Resets(mid)
  {
    ResetsNone(pre);
    ResetsNone(post);
    ResetsAppend(pre, mid);
    ResetsAppend(pre + mid, post);
  }

  /** Which phase each kind of command of the trace belongs to. */
  lemma PhasesMembers(pre: seq<GitOp>, mid: seq<GitOp>, post: seq<GitOp>)
    requires forall k :: 0 <= k < |pre| ==> PreludeOp(pre[k])
    requires forall k :: 0 <= k < |mid| ==> SyncOp(mid[k])
    requires forall k :: 0 <= k < |post| ==> EpilogueOp(post[k])
    ensures StashPop in pre + mid + post <==> StashPop in post
    ensures PullNoRebase in pre + mid + post <==> PullNoRebase in mid
    ensures forall k :: 0 <= k < |pre + mid + post| && (pre + mid + post)[k].SubmoduleUpdate? ==>
      (pre + mid + post)[k] in post
  {
    var ops := pre + mid + post;
    forall k | 0 <= k < |ops| && ops[k].SubmoduleUpdate?
      ensures ops[k] in post
    {
      assert k >= |pre| + |mid| && ops[k] == post[k - |pre| - |mid|];
    }
  }

  /** The synchronisation on a branch with an upstream: `git pull`, retried with
      --no-rebase on a missing remote ref, then replaced by fetch and a hard
      reset to origin/<current> (src/utils/gitManager.js:300-319). */
  method PullUpstream(o: PullOracle, current: string) returns (s: SyncOutcome, ops: seq<GitOp>)
    ensures forall k :: 0 <= k < |ops| ==> SyncOp(ops[k])
    ensures ops != [] && ops[0] == Pull && !s.NoValidRemote?
    ensures PullNoRebase in ops <==> o.pull.Err? && Contains(o.pull.error, RemoteRefMissing)
    ensures o.pull.Ok? ==> s == Synced(o.pull.value) && ops == [Pull]
    ensures o.pull.Err? && !Contains(o.pull.error, RemoteRefMissing) ==> s == SyncFailed(o.pull.error)
    ensures o.pull.Err? && Contains(o.pull.error, RemoteRefMissing) && o.pullNoRebase.Ok? ==>
      s == Synced(o.pullNoRebase.value)
    ensures o.pull.Err? && Contains(o.pull.error, RemoteRefMissing) && o.pullNoRebase.Err? && o.fetch.Pass? ==>
      Resets(ops) == [Origin(current)] && (s.Synced? <==> Origin(current) in o.resetOk)
    ensures s == UpstreamResult(o, current)
  {
    ops := [Pull];
    if o.pull.Ok? {
      return Synced(o.pull.value), ops;
    }
    if !Contains(o.pull.error, RemoteRefMissing) {
      return SyncFailed(o.pull.error), ops;
    }
    ops := ops + [PullNoRebase];
    if o.pullNoRebase.Ok? {
      return Synced(o.pullNoRebase.value), ops;
    }
    ops := ops + [FetchAll];
    if o.fetch.Fail? {
      return SyncFailed(o.fetch.error), ops;
    }
    ops := ops + [ResetHard(Origin(current))];
    assert Resets(ops) == [Origin(current)] by {
      assert ops == [Pull, PullNoRebase, FetchAll] + [ResetHard(Origin(current))];
      ResetsNone([Pull, PullNoRebase, FetchAll]);
      ResetsAppend([Pull, PullNoRebase, FetchAll], [ResetHard(Origin(current))]);
      assert Resets([ResetHard(Origin(current))]) == [Origin(current)] + Resets([]);
    }
    if Origin(current) !in o.resetOk {
      return SyncFailed(o.resetError), ops;
    }
    return Synced(NoChanges), ops;
  }

  /** The synchronisation without an upstream: fetch, then a hard reset to
      origin/<b> for each common branch `b` in turn, stopping at the first that
      succeeds (src/utils/gitManager.js:320-344). */
  method ResetToCommonBranch(o: PullOracle) returns (s: SyncOutcome, ops: seq<GitOp>)
    ensures forall k :: 0 <= k < |ops| ==> SyncOp(ops[k])
    ensures ops != [] && ops[0] == FetchAll && Pull !in ops && PullNoRebase !in ops
    ensures o.fetch.Fail? ==> s == SyncFailed(o.fetch.error) && ops == [FetchAll]
    ensures o.fetch.Pass? ==> Resets(ops) == ResetChain(CommonBranches, o.resetOk)
    ensures o.fetch.Pass? ==> (s == Synced(NoChanges) <==> AnyResettable(CommonBranches, o.resetOk))
    ensures s.NoValidRemote? <==> o.fetch.Pass? && !AnyResettable(CommonBranches, o.resetOk)
  {
    if o.fetch.Fail? {
      return SyncFailed(o.fetch.error), [FetchAll];
    }
    var ok, resets := ResetFirst(CommonBranches, o.resetOk);
    ops := [FetchAll] + resets;
    assert Resets([FetchAll]) == [];
    ResetsAppend([FetchAll], resets);
    s := if ok then Synced(NoChanges) else NoValidRemote;
  }

  /** The reset loop over `bs`: reports whether some reset succeeded, and the
      resets it issued. */
  method ResetFirst(bs: seq<string>, resetOk: set<string>) returns (ok: bool, ops: seq<GitOp>)
    ensures forall k :: 0 <= k < |ops| ==> ops[k].ResetHard?
    ensures Resets(ops) == ResetChain(bs, resetOk)
    ensures ok <==> AnyResettable(bs, resetOk)
  {
    ok := false;
    ops := [];
    var i := 0;
    while i < |bs|
      invariant 0 <= i <= |bs|
      invariant ops == ResetOps(bs[..i])
      invariant forall k :: 0 <= k < |ops| ==> ops[k].ResetHard?
      invariant forall j :: 0 <= j < i ==> Origin(bs[j]) !in resetOk
    {
      assert bs[..i + 1] == bs[..i] + [bs[i]];
      ResetOpsSnoc(bs[..i], bs[i]);
      ops := ops + [ResetHard(Origin(bs[i]))];
      i := i + 1;
      if Origin(bs[i - 1]) in resetOk {
        ok := true;
        break;
      }
    }
    LoopExit(bs, resetOk, i, ok);
  }

  /** Where the reset loop stops: after the first success, or after the last target. */
  lemma LoopExit(bs: seq<string>, resetOk: set<string>, i: nat, found: bool)
    requires i <= |bs|
    requires forall j :: 0 <= j < i - 1 ==> Origin(bs[j]) !in resetOk
    requires found ==> i >= 1 && Origin(bs[i - 1]) in resetOk
    requires !found ==> i == |bs| && (i == 0 || Origin(bs[i - 1]) !in resetOk)
    ensures Resets(ResetOps(bs[..i])) == ResetChain(bs, resetOk)
    ensures found <==> AnyResettable(bs, resetOk)
  {
    ChainIsPrefix(bs, resetOk, i);
    if found {
      assert Origin(bs[i - 1]) in resetOk;
    } else {
      forall k | 0 <= k < |bs|
        ensures Origin(bs[k]) !in resetOk
      {
        if k == i - 1 {
          assert Origin(bs[i - 1]) !in resetOk;
        }
      }
    }
  }

  /** The branch information was read and names no upstream (none, or the
      falsy empty string: `if (upstream)`). */
  predicate NoUpstream(o: PullOracle) {
    o.branchInfo.Ok? && !Truthy(o.branchInfo.value.upstream)
  }

  /** The branch information was read and names a truthy upstream. */
  predicate HasUpstream(o: PullOracle) {
    o.branchInfo.Ok? && Truthy(o.branchInfo.value.upstream)
  }

  /** The synchronisation with the remote (src/utils/gitManager.js:295-348):
      read the branch information, then pull or reset; any error inside is
      turned into a failure message. */
  method SyncWithRemote(o: PullOracle) returns (s: SyncOutcome, ops: seq<GitOp>)
    ensures forall k :: 0 <= k < |ops| ==> SyncOp(ops[k])
    ensures o.branchInfo.Err? ==> s == SyncFailed(o.branchInfo.error) && ops == []
    ensures NoUpstream(o) ==> ops != [] && ops[0] == FetchAll && Pull !in ops && PullNoRebase !in ops
    ensures NoUpstream(o) && o.fetch.Pass? ==> Resets(ops) == ResetChain(CommonBranches, o.resetOk)
    ensures s.NoValidRemote? <==> NoUpstream(o) && o.fetch.Pass? && !AnyResettable(CommonBranches, o.resetOk)
    ensures HasUpstream(o) ==> ops != [] && ops[0] == Pull
    ensures PullNoRebase in ops <==> HasUpstream(o) && o.pull.Err? && Contains(o.pull.error, RemoteRefMissing)
    ensures HasUpstream(o) && o.pull.Err? && !Contains(o.pull.error, RemoteRefMissing) ==>
      s == SyncFailed(o.pull.error)
    ensures s == SyncResult(o)
  {
    if o.branchInfo.Err? {
      return SyncFailed(o.branchInfo.error), [];
    }
    var info := o.branchInfo.value;
    if Truthy(info.upstream) {
      s, ops := PullUpstream(o, info.current);
    } else {
      s, ops := ResetToCommonBranch(o);
    }
  }

  lemma ResetOpsSnoc(bs: seq<string>, b: string)
    ensures ResetOps(bs + [b]) == ResetOps(bs) + [ResetHard(Origin(b))]
  {
  }

  /** GitManager.pullRepository over the answers `o`; `stamp` stands for
      `Date.now()`. Returns the outcome and the git commands issued, in order. */
  method PullRepository(o: PullOracle, includeSubmodules: bool, mode: Mode, stamp: string)
    returns (r: PullOutcome, ops: seq<GitOp>)
    // a failed status aborts before anything is issued
    ensures o.status.Err? ==> ops == []
    // dirty tree and mode normal: the sentinel, and no command at all
    ensures r.HasChanges? <==> Dirty(o) && mode == Normal
    ensures r.HasChanges? ==> ops == []
    // the stash is saved first, and only for a dirty tree in mode stash
    ensures (|ops| > 0 && ops[0] == StashSave(StashName(stamp))) <==> Dirty(o) && mode == Stash
    ensures StashPop in ops ==> PassesGate(o, mode) && Dirty(o) && mode == Stash
    // a failed pop names the retained stash
    ensures r == StashConflict(StashName(stamp)) <==> StashPop in ops && o.stashPop.Fail?
    // the detached-HEAD repair comes before any pull or reset
    ensures CheckoutsFirst(ops)
    ensures o.detached && PassesGate(o, mode) && o.branches.Ok? ==> RepairOp(o.branches.value, stamp) in ops
    // no upstream: hard resets to origin/main, master, develop, development, first success wins
    ensures NoUpstreamFetched(o, mode) ==> Resets(ops) == ResetChain(CommonBranches, o.resetOk)
    // submodules are only touched on request
    ensures !includeSubmodules ==> forall k :: 0 <= k < |ops| ==> !ops[k].SubmoduleUpdate?
    // after a successful synchronisation the saved stash is popped, and the requested update issued
    ensures (PassesGate(o, mode) && SyncResult(o).Synced? && Dirty(o) && mode == Stash) ==> StashPop in ops
    ensures (PassesGate(o, mode) && SyncResult(o).Synced? && includeSubmodules && o.hasSubmodules &&
             !(Dirty(o) && mode == Stash && o.stashPop.Fail?)) ==> SubmoduleUpdate(true) in ops
    // the outcome is the one the decision over the answers gives (PullResultSpec)
    ensures r == PullResult(o, includeSubmodules, mode, stamp)
  {
    var stop, pre := Prelude(o, mode, stamp);
    var mid: seq<GitOp> := [];
    var post: seq<GitOp> := [];
    if stop.Some? {
      r := stop.value;
    } else {
      r, mid, post := AfterGate(o, includeSubmodules, mode, stamp);
    }
    PhasesCheckoutsFirst(pre, mid, post);
    PhasesResets(pre, mid, post);
    PhasesMembers(pre, mid, post);
    ops := pre + mid + post;
  }

  /** Everything after a passed gate (src/utils/gitManager.js:295-368): the
      synchronisation, then the epilogue when it succeeded. */
  method AfterGate(o: PullOracle, includeSubmodules: bool, mode: Mode, stamp: string)
    returns (r: PullOutcome, mid: seq<GitOp>, post: seq<GitOp>)
    requires PassesGate(o, mode)
    ensures forall k :: 0 <= k < |mid| ==> SyncOp(mid[k])
    ensures forall k :: 0 <= k < |post| ==> EpilogueOp(post[k])
    ensures StashPop in post ==> Dirty(o) && mode == Stash
    ensures r == StashConflict(StashName(stamp)) <==> StashPop in post && o.stashPop.Fail?
    ensures NoUpstream(o) && o.fetch.Pass? ==> Resets(mid) == ResetChain(CommonBranches, o.resetOk)
    ensures !includeSubmodules ==> forall k :: 0 <= k < |post| ==> !post[k].SubmoduleUpdate?
    ensures (SyncResult(o).Synced? && Dirty(o) && mode == Stash) ==> StashPop in post
    ensures (SyncResult(o).Synced? && includeSubmodules && o.hasSubmodules &&
             !(Dirty(o) && mode == Stash && o.stashPop.Fail?)) ==> SubmoduleUpdate(true) in post
    ensures r == SyncedResult(o, includeSubmodules, Dirty(o) && mode == Stash, stamp, SyncResult(o))
  {
    var sync;
    sync, mid := SyncWithRemote(o);
    post := [];
    match sync
    case Synced(summary) =>
      r, post := Epilogue(o, includeSubmodules, Dirty(o) && mode == Stash, stamp, summary);
    case NoValidRemote =>
      r := NoValidRemoteBranch;
    case SyncFailed(message) =>
      r := BranchError(message);
  }

  /** The steps before the synchronisation (src/utils/gitManager.js:244-293):
      the status check, the dirty-tree gate, the stash save and the
      detached-HEAD repair. `stop` is the outcome when the call ends here. */
  method Prelude(o: PullOracle, mode: Mode, stamp: string) returns (stop: Option<PullOutcome>, pre: seq<GitOp>)
    ensures stop.Some? <==> !PassesGate(o, mode)
    ensures o.status.Err? ==> stop == Some(Raised(PullFailurePrefix + o.status.error)) && pre == []
    ensures stop == Some(HasChanges) <==> Dirty(o) && mode == Normal
    ensures stop == Some(HasChanges) ==> pre == []
    ensures stop.Some? ==> stop.value.Raised? || stop.value.HasChanges?
    ensures stop == GateStop(o, mode)
    ensures forall k :: 0 <= k < |pre| ==> PreludeOp(pre[k])
    ensures forall k :: 0 < k < |pre| ==> !pre[k].StashSave?
    ensures (|pre| > 0 && pre[0] == StashSave(StashName(stamp))) <==> Dirty(o) && mode == Stash
    ensures o.detached && PassesGate(o, mode) && o.branches.Ok? ==> RepairOp(o.branches.value, stamp) in pre
    ensures !o.detached || o.branches.Err? ==> forall k :: 0 <= k < |pre| ==> !pre[k].IsCheckout()
  {
    if o.status.Err? {
      return Some(Raised(PullFailurePrefix + o.status.error)), [];
    }
    var hasChanges := !o.status.value;
    if hasChanges && mode == Normal {
      return Some(HasChanges), [];
    }
    pre := [];
    if hasChanges && mode == Stash {
      pre := [StashSave(StashName(stamp))];
      if o.stashSave.Fail? {
        return Some(Raised(PullFailurePrefix + o.stashSave.error)), pre;
      }
    }
    if o.detached && o.branches.Ok? {
      // a failure of this checkout is only logged
      pre := pre + [RepairOp(o.branches.value, stamp)];
    }
    stop := None;
  }

  /** The steps after a successful synchronisation (src/utils/gitManager.js:350-368):
      the stash pop when one was saved, then the submodule update on request. */
  method Epilogue(o: PullOracle, includeSubmodules: bool, popStash: bool, stamp: string, summary: PullSummary)
    returns (r: PullOutcome, post: seq<GitOp>)
    ensures forall k :: 0 <= k < |post| ==> EpilogueOp(post[k])
    ensures StashPop in post <==> popStash
    ensures r.Updated? || r.StashConflict? || r.SubmoduleError?
    ensures r.StashConflict? <==> popStash && o.stashPop.Fail?
    ensures r.StashConflict? ==> r.stashName == StashName(stamp)
    ensures !includeSubmodules ==> !r.SubmoduleError? && forall k :: 0 <= k < |post| ==> !post[k].SubmoduleUpdate?
    // the requested update is issued unless the pop failed, and always after the pop
    ensures (includeSubmodules && o.hasSubmodules && !(popStash && o.stashPop.Fail?)) ==> SubmoduleUpdate(true) in post
    ensures popStash ==> post != [] && post[0] == StashPop
    ensures r.Updated? ==> r.summary == summary && (includeSubmodules && o.hasSubmodules ==> o.submoduleUpdate.Pass?)
    ensures r == SyncedResult(o, includeSubmodules, popStash, stamp, Synced(summary))
  {
    post := [];
    if popStash {
      post := [StashPop];
      if o.stashPop.Fail? {
        return StashConflict(StashName(stamp)), post;
      }
    }
    if includeSubmodules {
      var sub, subOps := UpdateSubmodules(o.hasSubmodules, o.submoduleUpdate);
      post := post + subOps;
      if sub.CommandFailed? {
        return SubmoduleError(sub.message), post;
      }
    }
    r := Updated(summary);
  }

  // ---------------------------------------------------------------------------
  // The returned strings

  /** The success message, with the counts of the pull summary. */
  function UpdatedMessage(s: PullSummary): (r: string)
    ensures |r| > 0 && r[0] == 'R'
  {
    "Repositório atualizado com sucesso: " + NatToString(s.changes) + " arquivos alterados, " +
    NatToString(s.insertions) + " inserções, " + NatToString(s.deletions) + " exclusões."
  }

  function NoValidRemoteMessage(): (r: string)
    ensures |r| > 0 && r[0] == 'N'
  {
    "Não foi possível atualizar o repositório. " + "Nenhuma branch remota válida encontrada."
  }

  function BranchErrorMessage(m: string): (r: string)
    ensures |r| > 0 && r[0] == 'E'
  {
    "Erro ao verificar informações da branch: " + m
  }

  function StashConflictMessage(n: string): (r: string)
    ensures |r| > 0 && r[0] == 'P'
  {
    "Pull realizado com sucesso, " + "mas ocorreram conflitos ao tentar restaurar suas mudanças. " +
    "Verifique o stash manualmente (" + n + ")."
  }

  function SubmoduleErrorMessage(m: string): (r: string)
    ensures |r| > 0 && r[0] == 'R'
  {
    "Repositório atualizado, " + "mas ocorreu um erro ao atualizar submódulos: " + m
  }

  /** The string pullRepository returns for a non-raised outcome. */
  function Render(r: PullOutcome): string
    requires !r.Raised?
  {
    match r
    case HasChanges => HasChangesSentinel
    case Updated(s) => UpdatedMessage(s)
    case NoValidRemoteBranch => NoValidRemoteMessage()
    case BranchError(m) => BranchErrorMessage(m)
    case StashConflict(n) => StashConflictMessage(n)
    case SubmoduleError(m) => SubmoduleErrorMessage(m)
  }

  /** Callers compare the returned string with 'STATUS_HAS_CHANGES': only the
      dirty-tree outcome renders as it. */
  lemma SentinelOnlyForHasChanges(r: PullOutcome)
    requires !r.Raised?
    ensures Render(r) == HasChangesSentinel <==> r.HasChanges?
  {
    assert HasChangesSentinel[0] == 'S';
  }
}

=== FILE: submodule_config.dfy ===
/** Parsing the output of `git config --file .gitmodules --list` into submodule
    descriptors (GitManager.getSubmodules). */
module SubmoduleConfig {
  import opened Wrappers
  import opened Text

  /** The literal that starts a match of /submodule\.(.+?)\.(.+?)=(.+)/. */
  const Marker: string := "submodule."

  /** Cap applied to the parsed name and path. */
  const MaxField: nat := 1000

  /** Length above which the display form is shortened. */
  const SafeLength: nat := 100

  /** The characters a regular-expression `.` matches: anything but a line terminator. */
  predicate IsLineChar(c: char) {
    c != '\n' && c != '\r' && c != '\U{2028}' && c != '\U{2029}'
  }

  predicate AllLineChars(s: string) {
    forall i :: 0 <= i < |s| ==> IsLineChar(s[i])
  }

  /** One match of the regular expression: groups 1, 2 and 3. */
  datatype ConfigEntry = ConfigEntry(name: string, key: string, value: string)

  predicate WellFormed(e: ConfigEntry) {
    |e.name| >= 1 && |e.key| >= 1 && |e.value| >= 1 &&
    AllLineChars(e.name) && AllLineChars(e.key) && AllLineChars(e.value)
  }

  /** The length of the run of line characters in `s` that starts at `i`
      (what the greedy `(.+)` consumes). */
  function RunLength(s: string, i: nat): (n: nat)
    requires i <= |s|
    ensures i + n <= |s|
    ensures forall j :: i <= j < i + n ==> IsLineChar(s[j])
    ensures i + n < |s| ==> !IsLineChar(s[i + n])
    decreases |s| - i
  {
    if i < |s| && IsLineChar(s[i]) then 1 + RunLength(s, i + 1) else 0
  }

  /** The lazy group 2: the key is `s[q..q+k]`, extended one character at a time
      until an '=' followed by at least one line character is found. The name is
      `s[p..q-1]`. */
  function MatchKey(s: string, p: nat, q: nat, k: nat): (r: Option<ConfigEntry>)
    requires p + 2 <= q && k >= 1 && q + k - 1 <= |s|
    requires forall j :: q <= j < q + k - 1 ==> IsLineChar(s[j])
    requires forall j :: p <= j < q - 1 ==> IsLineChar(s[j])
    ensures r.Some? ==> WellFormed(r.value) && r.value.name == s[p..q - 1]
    decreases |s| - k
  {
    if q + k >= |s| then None
    else if !IsLineChar(s[q + k - 1]) then None
    else if s[q + k] == '=' && RunLength(s, q + k + 1) >= 1 then
      var v := q + k + 1;
      Some(ConfigEntry(s[p..q - 1], s[q..q + k], s[v..v + RunLength(s, v)]))
    else MatchKey(s, p, q, k + 1)
  }

  /** The lazy group 1: the name is `s[p..p+n]`, extended one character at a time
      until it is followed by '.' and a key can be matched after it. */
  function MatchName(s: string, p: nat, n: nat): (r: Option<ConfigEntry>)
    requires n >= 1 && p + n - 1 <= |s|
    requires forall j :: p <= j < p + n - 1 ==> IsLineChar(s[j])
    ensures r.Some? ==> WellFormed(r.value)
    decreases |s| - n
  {
    if p + n >= |s| then None
    else if !IsLineChar(s[p + n - 1]) then None
    else if s[p + n] == '.' then
      match MatchKey(s, p, p + n + 1, 1)
      case Some(e) => Some(e)
      case None => MatchName(s, p, n + 1)
    else MatchName(s, p, n + 1)
  }

  /** The unanchored search: the first position holding "submodule." from which
      the rest of the pattern matches. */
  function MatchFrom(s: string, i: nat): (r: Option<ConfigEntry>)
    requires i <= |s|
    ensures r.Some? ==> WellFormed(r.value)
    decreases |s| - i
  {
    if i + |Marker| > |s| then None
    else if s[i..i + |Marker|] == Marker then
      match MatchName(s, i + |Marker|, 1)
      case Some(e) => Some(e)
      case None => MatchFrom(s, i + 1)
    else MatchFrom(s, i + 1)
  }

  /** `line.match(/submodule\.(.+?)\.(.+?)=(.+)/)`. */
  function MatchLine(line: string): Option<ConfigEntry> {
    MatchFrom(line, 0)
  }

  /** A parsed submodule (the object pushed at src/utils/gitManager.js:203-209). */
  datatype Submodule = Submodule(name: string, path: string, nameSafe: string, pathSafe: string)

  /** The display form: at most 100 characters, then "..." when shortened. */
  function Ellipsize(s: string): (r: string)
    ensures |r| <= SafeLength + 3
    ensures StartsWith(r, Truncate(s, SafeLength))
    ensures |s| <= SafeLength ==> r == s
    ensures |s| > SafeLength ==> |r| == SafeLength + 3 && EndsWith(r, "...")
  {
    if |s| > SafeLength then s[..SafeLength] + "..." else s
  }

  function MakeSubmodule(e: ConfigEntry): Submodule {
    var name := Truncate(e.name, MaxField);
    var value := Truncate(e.value, MaxField);
    Submodule(name, value, Ellipsize(name), Ellipsize(value))
  }

  /** What one line contributes: a submodule exactly when it matches with key "path". */
  function SubmoduleOfLine(line: string): Option<Submodule> {
    match MatchLine(line)
    case Some(e) => if e.key == "path" then Some(MakeSubmodule(e)) else None
    case None => None
  }

  /** The contribution of each line, in order. */
  function SubmodulesOf(lines: seq<string>): seq<Submodule>
    decreases |lines|
  {
    if lines == [] then []
    else
      var last := lines[|lines| - 1];
      SubmodulesOf(lines[..|lines| - 1]) +
        (match SubmoduleOfLine(last) case Some(m) => [m] case None => [])
  }

  /** `result.split('\n').filter(Boolean)`. */
  function ConfigLines(out: string): seq<string> {
    NonEmpty(Split(out, '\n'))
  }

  /** The submodules declared by a `git config --list` answer; a failed call gives []. */
  function ParsedSubmodules(config: Option<string>): seq<Submodule> {
    match config
    case None => []
    case Some(out) => SubmodulesOf(ConfigLines(out))
  }

  /** Number of lines that contribute a submodule. */
  function CountPathLines(lines: seq<string>): nat {
    if lines == [] then 0
    else (if SubmoduleOfLine(lines[0]).Some? then 1 else 0) + CountPathLines(lines[1..])
  }

  /** GitManager.getSubmodules. `config` is the answer of
      `git config --file .gitmodules --list`: `None` when the call throws. */
  method GetSubmodules(config: Option<string>) returns (subs: seq<Submodule>)
    ensures subs == ParsedSubmodules(config)
    ensures forall k :: 0 <= k < |subs| ==> BoundedSubmodule(subs[k])
  {
    if config.None? || config.value == "" {
      EmptyOutput();
      return [];
    }
    var lines := ConfigLines(config.value);
    subs := [];
    var i := 0;
    while i < |lines|
      invariant 0 <= i <= |lines|
      invariant subs == SubmodulesOf(lines[..i])
    {
      var m := MatchLine(lines[i]);
      SubmodulesOfStep(lines, i);
      if m.Some? && m.value.key == "path" {
        subs := subs + [MakeSubmodule(m.value)];
      }
      i := i + 1;
    }
    assert lines[..i] == lines;
    ParsedBounded(config);
  }

  lemma SubmodulesOfStep(lines: seq<string>, i: nat)
    requires i < |lines|
    ensures SubmodulesOf(lines[..i + 1]) ==
      SubmodulesOf(lines[..i]) + (match SubmoduleOfLine(lines[i]) case Some(m) => [m] case None => [])
  {
    assert lines[..i + 1][..i] == lines[..i];
  }

  /** The caps of src/utils/gitManager.js:198-207 hold of a descriptor. */
  predicate BoundedSubmodule(m: Submodule) {
    1 <= |m.name| <= MaxField && 1 <= |m.path| <= MaxField &&
    m.nameSafe == Ellipsize(m.name) && m.pathSafe == Ellipsize(m.path)
  }

  /** Every parsed descriptor has a non-empty name and path of at most 1000
      characters, and display forms derived from them. */
  lemma {:induction false} SubmodulesBounded(lines: seq<string>)
    ensures forall k :: 0 <= k < |SubmodulesOf(lines)| ==> BoundedSubmodule(SubmodulesOf(lines)[k])
    decreases |lines|
  {
    if lines != [] {
      SubmodulesBounded(lines[..|lines| - 1]);
    }
  }

  lemma ParsedBounded(config: Option<string>)
    ensures forall k :: 0 <= k < |ParsedSubmodules(config)| ==> BoundedSubmodule(ParsedSubmodules(config)[k])
  {
    if config.Some? {
      SubmodulesBounded(ConfigLines(config.value));
    }
  }

  /** Parsing distributes over concatenation of the line list: order is kept
      and each line contributes independently. */
  lemma {:induction false} SubmodulesOfAppend(a: seq<string>, b: seq<string>)
    ensures SubmodulesOf(a + b) == SubmodulesOf(a) + SubmodulesOf(b)
    decreases |b|
  {
    if b == [] {
      assert a + b == a;
    } else {
      var b' := b[..|b| - 1];
      assert (a + b)[..|a + b| - 1] == a + b';
      SubmodulesOfAppend(a, b');
    }
  }

  /** One line contributes its submodule, or nothing. */
  lemma SubmodulesOfSingle(line: string)
    ensures SubmodulesOf([line]) == (match SubmoduleOfLine(line) case Some(m) => [m] case None => [])
  {
    assert [line][..0] == [];
  }

  /** Exactly one entry per line whose match has key "path". */
  lemma {:induction false} SubmodulesCount(lines: seq<string>)
    ensures |SubmodulesOf(lines)| == CountPathLines(lines)
    decreases |lines|
  {
    if lines != [] {
      assert lines == [lines[0]] + lines[1..];
      SubmodulesOfAppend([lines[0]], lines[1..]);
      SubmodulesOfSingle(lines[0]);
      SubmodulesCount(lines[1..]);
    }
  }

  /** Empty output declares no submodules. */
  lemma EmptyOutput()
    ensures ParsedSubmodules(Some("")) == []
    ensures ParsedSubmodules(None) == []
  {
    assert Split("", '\n') == [""];
  }

  // ---------------------------------------------------------------------------
  // What the regular expression does with the lines git writes for a submodule.

  /** While no '=' is met, lengthening the key does not change the outcome. */
  lemma {:induction false} KeySkip(s: string, p: nat, q: nat, k: nat, target: nat)
    requires p + 2 <= q && 1 <= k <= target && q + target < |s|
    requires forall j :: p <= j < q - 1 ==> IsLineChar(s[j])
    requires forall j :: q <= j < q + target ==> IsLineChar(s[j])
    requires forall j :: q + k <= j < q + target ==> s[j] != '='
    ensures MatchKey(s, p, q, k) == MatchKey(s, p, q, target)
    decreases target - k
  {
    if k < target {
      KeySkip(s, p, q, k + 1, target);
    }
  }

  /** While no '.' is met, lengthening the name does not change the outcome. */
  lemma {:induction false} NameSkip(s: string, p: nat, n: nat, target: nat)
    requires 1 <= n <= target && p + target < |s|
    requires forall j :: p <= j < p + target ==> IsLineChar(s[j])
    requires forall j :: p + n <= j < p + target ==> s[j] != '.'
    ensures MatchName(s, p, n) == MatchName(s, p, target)
    decreases target - n
  {
    if n < target {
      NameSkip(s, p, n + 1, target);
    }
  }

  /** The greedy value group takes a trailing run of line characters whole. */
  lemma {:induction false} RunToEnd(s: string, i: nat)
    requires i <= |s|
    requires forall j :: i <= j < |s| ==> IsLineChar(s[j])
    ensures RunLength(s, i) == |s| - i
    decreases |s| - i
  {
    if i < |s| {
      RunToEnd(s, i + 1);
    }
  }

  /** The key group stops at the first '=' and the value takes the rest. */
  lemma KeyAt(s: string, p: nat, q: nat, v: nat)
    requires p + 2 <= q && q + 2 <= v < |s| && s[v - 1] == '='
    requires forall j :: p <= j < |s| ==> IsLineChar(s[j])
    requires forall j :: q <= j < v - 1 ==> s[j] != '='
    ensures MatchKey(s, p, q, v - 1 - q) == Some(ConfigEntry(s[p..q - 1], s[q..v - 1], s[v..]))
  {
    RunToEnd(s, v);
    var k := v - 1 - q;
    assert q + k == v - 1 && q + k + 1 == v;
    assert s[q + k] == '=' && IsLineChar(s[q + k - 1]);
    assert s[v..v + RunLength(s, v)] == s[v..];
  }

  /** The match of a line laid out as Marker, name, '.', key, '=', value
      at the given offsets. */
  lemma {:induction false} EntryAt(s: string, q: nat, v: nat)
    requires |Marker| + 2 <= q && q + 2 <= v < |s|
    requires s[..|Marker|] == Marker && s[q - 1] == '.' && s[v - 1] == '='
    requires forall j :: |Marker| <= j < |s| ==> IsLineChar(s[j])
    requires forall j :: |Marker| <= j < q - 1 ==> s[j] != '.'
    requires forall j :: q <= j < v - 1 ==> s[j] != '='
    ensures MatchLine(s) == Some(ConfigEntry(s[|Marker|..q - 1], s[q..v - 1], s[v..]))
  {
    var p := |Marker|;
    KeySkip(s, p, q, 1, v - 1 - q);
    KeyAt(s, p, q, v);
    NameSkip(s, p, 1, q - 1 - p);
    assert MatchName(s, p, q - 1 - p) == MatchKey(s, p, q, 1);
    assert s[0..p] == Marker;
  }

  /** The line `submodule.<name>.<key>=<value>` with a dot-free name and an
      '='-free key matches with exactly those three groups. */
  lemma EntryLine(name: string, key: string, value: string)
    requires |name| >= 1 && |key| >= 1 && |value| >= 1
    requires AllLineChars(name) && AllLineChars(key) && AllLineChars(value)
    requires '.' !in name && '=' !in key
    ensures MatchLine(Marker + name + "." + key + "=" + value) == Some(ConfigEntry(name, key, value))
  {
    var s := Marker + name + "." + key + "=" + value;
    var q := |Marker| + |name| + 1;
    var v := q + |key| + 1;
    assert s[..|Marker|] == Marker;
    assert s[|Marker|..q - 1] == name;
    assert s[q..v - 1] == key;
    assert s[v..] == value;
    forall j | |Marker| <= j < |s| ensures IsLineChar(s[j]) {
      if j < q - 1 { assert s[j] == name[j - |Marker|]; }
      else if j == q - 1 || j == v - 1 { }
      else if j < v - 1 { assert s[j] == key[j - q]; }
      else { assert s[j] == value[j - v]; }
    }
    forall j | |Marker| <= j < q - 1 ensures s[j] != '.' {
      assert s[j] == name[j - |Marker|];
    }
    forall j | q <= j < v - 1 ensures s[j] != '=' {
      assert s[j] == key[j - q];
    }
    EntryAt(s, q, v);
  }

  /** The line git writes for a submodule `name` at `path` yields that submodule
      when the name has no '.'. */
  lemma PathLineParsed(name: string, path: string)
    requires 1 <= |name| <= SafeLength && 1 <= |path| <= SafeLength
    requires AllLineChars(name) && AllLineChars(path) && '.' !in name
    ensures SubmoduleOfLine(Marker + name + ".path=" + path) == Some(Submodule(name, path, name, path))
  {
    EntryLine(name, "path", path);
    assert Marker + name + ".path=" + path == Marker + name + "." + "path" + "=" + path;
  }

  /** A submodule whose name contains a '.' (`a.b`) is split at the first dot: the
      key becomes `b.path`, so the line contributes nothing. */
  lemma DottedNameDropped(a: string, b: string, path: string)
    requires |a| >= 1 && |b| >= 1 && |path| >= 1
    requires AllLineChars(a) && AllLineChars(b) && AllLineChars(path)
    requires '.' !in a && '=' !in b
    ensures MatchLine(Marker + a + "." + b + ".path=" + path) == Some(ConfigEntry(a, b + ".path", path))
    ensures SubmoduleOfLine(Marker + a + "." + b + ".path=" + path) == None
  {
    var key := b + ".path";
    assert forall i :: 0 <= i < |key| ==> key[i] == (if i < |b| then b[i] else ".path"[i - |b|]);
    assert '=' !in key;
    EntryLine(a, key, path);
    assert Marker + a + "." + b + ".path=" + path == Marker + a + "." + key + "=" + path;
    assert key != "path" by { assert |key| > 4; }
  }
}

=== FILE: submodule_repair.dfy ===
/** GitManager.fixDetachedSubmodules: for every submodule with a detached HEAD,
    an ordered chain of checkout strategies, and the counters and detail lines
    of the batch. */
module SubmoduleRepair {
  import opened Wrappers
  import opened Text
  import opened Workspace
  import opened SubmoduleConfig

  /** How the repair of one detached submodule ends. */
  datatype RepairResult = Fixed(branch: string) | RepairFailed(message: string)

  /** The message of the ReferenceError raised once strategies 1 to 3 have all
      failed: `remotes` is read outside the block that declares it
      (src/utils/gitManager.js:502, 523). */
  const RemotesNotDefined: string := "remotes is not defined"

  /** `branches.all.filter(b => !b.includes('remotes/') && b !== 'HEAD')`. */
  function LocalCandidates(all: seq<string>): (r: seq<string>)
    ensures forall k :: 0 <= k < |r| ==> r[k] in all && !Contains(r[k], "remotes/") && r[k] != "HEAD"
    ensures forall b :: b in all && !Contains(b, "remotes/") && b != "HEAD" ==> b in r
  {
    if all == [] then []
    else if !Contains(all[0], "remotes/") && all[0] != "HEAD" then [all[0]] + LocalCandidates(all[1..])
    else LocalCandidates(all[1..])
  }

  /** `remotes/<remote>/<branch>`. */
  function RemoteBranch(remote: string, branch: string): string {
    "remotes/" + remote + "/" + branch
  }

  /** Strategy 1: the first common branch listed in `all` whose checkout succeeds. */
  function FirstLocalCommon(bs: seq<string>, all: seq<string>, ok: set<string>): (r: Option<string>)
    ensures r.Some? ==> r.value in bs && r.value in all && r.value in ok
    ensures r.None? <==> forall b :: b in bs && b in all ==> b !in ok
  {
    if bs == [] then None
    else if bs[0] in all && bs[0] in ok then Some(bs[0])
    else FirstLocalCommon(bs[1..], all, ok)
  }

  /** Strategy 3: the first common branch whose `remotes/<remote>/<b>` is listed
      in `all` and can be checked out with --track. */
  function FirstTracked(bs: seq<string>, remote: string, all: seq<string>, ok: set<string>): (r: Option<string>)
    ensures r.Some? ==> r.value in bs && RemoteBranch(remote, r.value) in all && RemoteBranch(remote, r.value) in ok
    ensures r.None? <==> forall b :: b in bs && RemoteBranch(remote, b) in all ==> RemoteBranch(remote, b) !in ok
  {
    if bs == [] then None
    else if RemoteBranch(remote, bs[0]) in all && RemoteBranch(remote, bs[0]) in ok then Some(bs[0])
    else FirstTracked(bs[1..], remote, all, ok)
  }

  /** The outcome of the strategy chain for one detached submodule. */
  function RepairOutcome(p: Probe): RepairResult {
    if p.fetch.Fail? then RepairFailed(p.fetch.error)
    else if p.branches.Err? then RepairFailed(p.branches.error)
    else
      var all := p.branches.value;
      match FirstLocalCommon(CommonBranches, all, p.checkoutOk)
      case Some(b) => Fixed(b)
      case None =>
        var local := LocalCandidates(all);
        if |local| > 0 && local[0] in p.checkoutOk then Fixed(local[0])
        else if p.remotes.Err? then RepairFailed(p.remotes.error)
        else if |p.remotes.value| > 0 && FirstTracked(CommonBranches, p.remotes.value[0], all, p.trackOk).Some? then
          Fixed(FirstTracked(CommonBranches, p.remotes.value[0], all, p.trackOk).value)
        else RepairFailed(RemotesNotDefined)
  }

  /** Strategy 1's loop: `git checkout <b>` for each branch of `bs` listed in
      `all`, until one succeeds. */
  method TryCommonBranches(bs: seq<string>, all: seq<string>, ok: set<string>) returns (found: Option<string>, ops: seq<GitOp>)
    ensures found == FirstLocalCommon(bs, all, ok)
    ensures forall k :: 0 <= k < |ops| ==> ops[k].IsCheckout()
    ensures found.Some? ==> ops != [] && ops[|ops| - 1] == Checkout(found.value)
  {
    ops := [];
    var i := 0;
    while i < |bs|
      invariant 0 <= i <= |bs|
      invariant FirstLocalCommon(bs, all, ok) == FirstLocalCommon(bs[i..], all, ok)
      invariant forall k :: 0 <= k < |ops| ==> ops[k].IsCheckout()
    {
      if bs[i] in all {
        ops := ops + [Checkout(bs[i])];
        if bs[i] in ok {
          return Some(bs[i]), ops;
        }
      }
      assert bs[i..][1..] == bs[i + 1..];
      i := i + 1;
    }
    found := None;
  }

  /** Strategy 3's loop: `git checkout -b <b> --track remotes/<remote>/<b>` for
      each branch of `bs` whose remote branch is listed in `all`, until one
      succeeds. */
  method TryTrackedBranches(bs: seq<string>, remote: string, all: seq<string>, ok: set<string>)
    returns (found: Option<string>, ops: seq<GitOp>)
    ensures found == FirstTracked(bs, remote, all, ok)
    ensures forall k :: 0 <= k < |ops| ==> ops[k].IsCheckout()
    ensures found.Some? ==> ops != [] && ops[|ops| - 1] == CheckoutTrack(found.value, RemoteBranch(remote, found.value))
  {
    ops := [];
    var i := 0;
    while i < |bs|
      invariant 0 <= i <= |bs|
      invariant FirstTracked(bs, remote, all, ok) == FirstTracked(bs[i..], remote, all, ok)
      invariant forall k :: 0 <= k < |ops| ==> ops[k].IsCheckout()
    {
      var rb := RemoteBranch(remote, bs[i]);
      if rb in all {
        ops := ops + [CheckoutTrack(bs[i], rb)];
        if rb in ok {
          return Some(bs[i]), ops;
        }
      }
      assert bs[i..][1..] == bs[i + 1..];
      i := i + 1;
    }
    found := None;
  }

  /** The repair of one detached submodule (src/utils/gitManager.js:464-565):
      fetch, list the branches, then try the common branches locally, the first
      local branch, and the common branches tracked from the first remote. */
  method RepairSubmodule(p: Probe) returns (res: RepairResult, ops: seq<GitOp>)
    ensures res == RepairOutcome(p)
    ensures ops != [] && ops[0] == FetchAll
    ensures forall k :: 0 < k < |ops| ==> ops[k].IsCheckout()
    // the branch reported as fixed is the one the last command checked out
    ensures res.Fixed? ==>
      ops[|ops| - 1] == Checkout(res.branch) ||
      (ops[|ops| - 1].CheckoutTrack? && ops[|ops| - 1].branch == res.branch)
  {
    if p.fetch.Fail? {
      return RepairFailed(p.fetch.error), [FetchAll];
    }
    if p.branches.Err? {
      return RepairFailed(p.branches.error), [FetchAll];
    }
    var all := p.branches.value;
    // strategy 1: a local common branch
    var found, tried := TryCommonBranches(CommonBranches, all, p.checkoutOk);
    ops := [FetchAll] + tried;
    if found.Some? {
      return Fixed(found.value), ops;
    }
    // strategy 2: the first local branch
    var local := LocalCandidates(all);
    if |local| > 0 {
      ops := ops + [Checkout(local[0])];
      if local[0] in p.checkoutOk {
        return Fixed(local[0]), ops;
      }
    }
    // strategy 3: a common branch tracked from the first remote
    if p.remotes.Err? {
      return RepairFailed(p.remotes.error), ops;
    }
    var remotes := p.remotes.value;
    if |remotes| > 0 {
      found, tried := TryTrackedBranches(CommonBranches, remotes[0], all, p.trackOk);
      ops := ops + tried;
      if found.Some? {
        return Fixed(found.value), ops;
      }
    }
    // strategies 4 and 5 start by reading `remotes` out of its scope
    res := RepairFailed(RemotesNotDefined);
  }

  /** One submodule of the batch (src/utils/gitManager.js:440-562). */
  method FixOne(p: Probe) returns (f: SubmoduleFix)
    ensures f == Classify(p)
  {
    if !p.hasGitDir {
      return Skipped;
    }
    if !p.detached {
      return OnBranch;
    }
    var res, _ := RepairSubmodule(p);
    f := if res.Fixed? then Repaired(res.branch) else Failed(res.message);
  }

  /** Strategies 4 and 5 (a remote branch by name, a temporary branch) are never
      reached: a repaired submodule is always on a common branch or on the
      first local branch. */
  lemma FixedBranchOrigin(p: Probe)
    requires RepairOutcome(p).Fixed?
    ensures p.fetch.Pass? && p.branches.Ok?
    ensures var b := RepairOutcome(p).branch;
      b in CommonBranches || (LocalCandidates(p.branches.value) != [] && b == LocalCandidates(p.branches.value)[0])
  {
  }

  /** When the first three strategies fail, the repair is reported as the
      ReferenceError, whatever the remote branches are. */
  lemma StrategiesExhausted(p: Probe)
    requires p.fetch.Pass? && p.branches.Ok? && p.remotes.Ok?
    requires forall b :: b in CommonBranches ==> b !in p.checkoutOk
    requires forall b :: b in LocalCandidates(p.branches.value) ==> b !in p.checkoutOk
    requires forall rb :: rb !in p.trackOk
    ensures RepairOutcome(p) == RepairFailed(RemotesNotDefined)
  {
    var all := p.branches.value;
    assert FirstLocalCommon(CommonBranches, all, p.checkoutOk).None?;
    var local := LocalCandidates(all);
    assert |local| > 0 ==> local[0] in local;
  }

  /** A detached submodule whose `main` branch is listed and can be checked out
      is repaired onto `main`, before any other candidate is tried. */
  lemma MainPreferred(p: Probe)
    requires p.fetch.Pass? && p.branches.Ok?
    requires "main" in p.branches.value && "main" in p.checkoutOk
    ensures RepairOutcome(p) == Fixed("main")
  {
    assert CommonBranches[0] == "main";
  }

  // ---------------------------------------------------------------------------
  // The batch (src/utils/gitManager.js:417-592)

  /** What happened to one submodule of the batch. */
  datatype SubmoduleFix = Skipped | OnBranch | Repaired(branch: string) | Failed(message: string)

  /** `submodule.nameSafe || submodule.name`. */
  function DisplayName(m: Submodule): string {
    OrElse(Some(m.nameSafe), m.name)
  }

  /** The full path of a submodule, probed on the filesystem and by git. */
  function FullPath(repoPath: string, m: Submodule): string {
    Join(repoPath, m.path)
  }

  /** The fate of one submodule: not initialised, already on a branch, or the
      outcome of its repair. */
  function Classify(p: Probe): SubmoduleFix {
    if !p.hasGitDir then Skipped
    else if !p.detached then OnBranch
    else match RepairOutcome(p)
      case Fixed(b) => Repaired(b)
      case RepairFailed(m) => Failed(m)
  }

  /** The detail line pushed for one submodule. */
  function Detail(name: string, f: SubmoduleFix): string {
    match f
    case Skipped => "Submódulo " + name + " não inicializado, ignorado."
    case OnBranch => "🟢 " + name + ": Já está em uma branch (não detached), ignorado."
    case Repaired(b) => "✅ " + name + ": Corrigido, usando branch '" + b + "'"
    case Failed(m) => "❌ Erro ao corrigir " + name + ": " + m
  }

  /** The fates of the submodules, in order. */
  function Fates(repoPath: string, subs: seq<Submodule>, probe: string -> Probe): (r: seq<SubmoduleFix>)
    ensures |r| == |subs|
    ensures forall k :: 0 <= k < |subs| ==> r[k] == Classify(probe(FullPath(repoPath, subs[k])))
  {
    if subs == [] then []
    else Fates(repoPath, subs[..|subs| - 1], probe) + [Classify(probe(FullPath(repoPath, subs[|subs| - 1])))]
  }

  function CountRepaired(fs: seq<SubmoduleFix>): nat {
    if fs == [] then 0 else CountRepaired(fs[..|fs| - 1]) + (if fs[|fs| - 1].Repaired? then 1 else 0)
  }

  function CountFailed(fs: seq<SubmoduleFix>): nat {
    if fs == [] then 0 else CountFailed(fs[..|fs| - 1]) + (if fs[|fs| - 1].Failed? then 1 else 0)
  }

  function CountSkipped(fs: seq<SubmoduleFix>): nat {
    if fs == [] then 0 else CountSkipped(fs[..|fs| - 1]) + (if fs[|fs| - 1].Skipped? then 1 else 0)
  }

  /** The counters of the batch over the fates `fs`: `total` counts the
      detached submodules, `fixed` and `errors` the two ways their repair ends. */
  function CountTotal(fs: seq<SubmoduleFix>): nat {
    if fs == [] then 0 else CountTotal(fs[..|fs| - 1]) + (if fs[|fs| - 1].Repaired? || fs[|fs| - 1].Failed? then 1 else 0)
  }

  /** The detail lines over the fates `fs`. */
  function Details(repoPath: string, subs: seq<Submodule>, probe: string -> Probe): (r: seq<string>)
    ensures |r| == |subs|
  {
    if subs == [] then []
    else
      var m := subs[|subs| - 1];
      Details(repoPath, subs[..|subs| - 1], probe) + [Detail(DisplayName(m), Classify(probe(FullPath(repoPath, m))))]
  }

  /** What fixDetachedSubmodules returns. */
  datatype FixReport =
    | NoSubmodules   // 'Este repositório não tem submódulos', counters 0
    | Report(fixed: nat, total: nat, errors: nat, skipped: nat, details: seq<string>)

  /** The report the batch produces for the parsed submodules `subs`. */
  function ExpectedReport(repoPath: string, subs: seq<Submodule>, probe: string -> Probe): FixReport {
    if subs == [] then NoSubmodules
    else
      var fs := Fates(repoPath, subs, probe);
      Report(CountRepaired(fs), CountTotal(fs), CountFailed(fs), CountSkipped(fs), Details(repoPath, subs, probe))
  }

  /** `total` is `fixed + errors`: every detached submodule is either fixed or
      counted as an error. */
  lemma {:induction false} TotalSplits(fs: seq<SubmoduleFix>)
    ensures CountTotal(fs) == CountRepaired(fs) + CountFailed(fs)
  {
    if fs != [] {
      TotalSplits(fs[..|fs| - 1]);
    }
  }

  /** Every submodule lands in at most one counter. */
  lemma {:induction false} CountersBounded(fs: seq<SubmoduleFix>)
    ensures CountTotal(fs) + CountSkipped(fs) <= |fs|
  {
    if fs != [] {
      CountersBounded(fs[..|fs| - 1]);
    }
  }

  /** No initialised submodule is detached: nothing is fixed, counted or failed. */
  lemma {:induction false} NoneDetached(fs: seq<SubmoduleFix>)
    requires forall k :: 0 <= k < |fs| ==> fs[k].Skipped? || fs[k].OnBranch?
    ensures CountTotal(fs) == 0 && CountRepaired(fs) == 0 && CountFailed(fs) == 0
  {
    if fs != [] {
      NoneDetached(fs[..|fs| - 1]);
    }
  }

  /** A submodule is skipped only for a missing `.git` entry: when every
      submodule has one, none is skipped. */
  lemma {:induction false} SkippedAreUninitialised(repoPath: string, subs: seq<Submodule>, probe: string -> Probe)
    requires forall k :: 0 <= k < |subs| ==> probe(FullPath(repoPath, subs[k])).hasGitDir
    ensures CountSkipped(Fates(repoPath, subs, probe)) == 0
  {
    if subs != [] {
      var fs := Fates(repoPath, subs, probe);
      assert fs[..|fs| - 1] == Fates(repoPath, subs[..|subs| - 1], probe);
      SkippedAreUninitialised(repoPath, subs[..|subs| - 1], probe);
    }
  }

  /** The report's counters are consistent: `fixed + errors == total`,
      `total + skipped` at most the number of submodules, and one detail line
      per submodule. */
  lemma ReportConsistent(repoPath: string, subs: seq<Submodule>, probe: string -> Probe)
    ensures var rep := ExpectedReport(repoPath, subs, probe);
      rep.Report? ==>
        rep.fixed + rep.errors == rep.total && rep.total + rep.skipped <= |subs| &&
        |rep.details| == |subs| && rep.fixed <= rep.total
  {
    var fs := Fates(repoPath, subs, probe);
    TotalSplits(fs);
    CountersBounded(fs);
  }

  lemma Snoc(repoPath: string, subs: seq<Submodule>, i: nat, probe: string -> Probe)
    requires i < |subs|
    ensures Fates(repoPath, subs[..i + 1], probe) ==
      Fates(repoPath, subs[..i], probe) + [Classify(probe(FullPath(repoPath, subs[i])))]
    ensures Details(repoPath, subs[..i + 1], probe) ==
      Details(repoPath, subs[..i], probe) + [Detail(DisplayName(subs[i]), Classify(probe(FullPath(repoPath, subs[i]))))]
  {
    assert subs[..i + 1][..i] == subs[..i];
  }

  lemma CountsSnoc(fs: seq<SubmoduleFix>, f: SubmoduleFix)
    ensures CountRepaired(fs + [f]) == CountRepaired(fs) + (if f.Repaired? then 1 else 0)
    ensures CountFailed(fs + [f]) == CountFailed(fs) + (if f.Failed? then 1 else 0)
    ensures CountSkipped(fs + [f]) == CountSkipped(fs) + (if f.Skipped? then 1 else 0)
    ensures CountTotal(fs + [f]) == CountTotal(fs) + (if f.Repaired? || f.Failed? then 1 else 0)
  {
    assert (fs + [f])[..|fs|] == fs;
  }

  /** GitManager.fixDetachedSubmodules over the `.gitmodules` listing `config`
      of `repoPath` and the answers `probe` gives for each submodule path. */
  method FixDetachedSubmodules(repoPath: string, config: Option<string>, probe: string -> Probe)
    returns (rep: FixReport)
    ensures rep == ExpectedReport(repoPath, ParsedSubmodules(config), probe)
    ensures rep.NoSubmodules? <==> ParsedSubmodules(config) == []
  {
    var subs := GetSubmodules(config);
    if |subs| == 0 {
      return NoSubmodules;
    }
    var fixed, total, errors, skipped := 0, 0, 0, 0;
    var details: seq<string> := [];
    ghost var fates: seq<SubmoduleFix> := [];
    var i := 0;
    while i < |subs|
      invariant 0 <= i <= |subs|
      invariant fates == Fates(repoPath, subs[..i], probe)
      invariant details == Details(repoPath, subs[..i], probe)
      invariant fixed == CountRepaired(fates) && total == CountTotal(fates)
      invariant errors == CountFailed(fates) && skipped == CountSkipped(fates)
    {
      var m := subs[i];
      var name := DisplayName(m);
      var f := FixOne(probe(FullPath(repoPath, m)));
      if f.Skipped? {
        skipped := skipped + 1;
      } else if f.Repaired? {
        total := total + 1;
        fixed := fixed + 1;
      } else if f.Failed? {
        total := total + 1;
        errors := errors + 1;
      }
      Snoc(repoPath, subs, i, probe);
      CountsSnoc(fates, f);
      details := details + [Detail(name, f)];
      fates := fates + [f];
      i := i + 1;
    }
    assert subs[..i] == subs;
    rep := Report(fixed, total, errors, skipped, details);
  }
}

=== FILE: text.dfy ===
/** The JavaScript string operations the core relies on, on `seq<char>`. */
module Text {
  import opened Wrappers

  /** `s.startsWith(p)`. */
  predicate StartsWith(s: string, p: string) {
    |p| <= |s| && s[..|p|] == p
  }

  /** `s.endsWith(p)`. */
  predicate EndsWith(s: string, p: string) {
    |p| <= |s| && s[|s| - |p|..] == p
  }

  /** `t` occurs in `s` starting at index `j`. */
  predicate OccursAt(s: string, t: string, j: int) {
    0 <= j && j + |t| <= |s| && s[j..j + |t|] == t
  }

  /** The first index at or after `i` where `t` occurs in `s` (`s.indexOf(t, i)`). */
  function IndexOfFrom(s: string, t: string, i: nat): (r: Option<nat>)
    requires i <= |s|
    ensures r.Some? ==> i <= r.value && r.value + |t| <= |s|
    decreases |s| - i
  {
    if i + |t| > |s| then None
    else if s[i..i + |t|] == t then Some(i)
    else IndexOfFrom(s, t, i + 1)
  }

  /** The search finds the first occurrence at or after `i`, and only fails
      when there is none. */
  lemma {:induction false} IndexOfFromSpec(s: string, t: string, i: nat)
    requires i <= |s|
    ensures var r := IndexOfFrom(s, t, i);
      (r.Some? ==> i <= r.value && OccursAt(s, t, r.value) &&
                   forall j :: i <= j < r.value ==> !OccursAt(s, t, j)) &&
      (r.None? ==> forall j :: i <= j ==> !OccursAt(s, t, j))
    decreases |s| - i
  {
    if i + |t| <= |s| && s[i..i + |t|] != t {
      IndexOfFromSpec(s, t, i + 1);
    }
  }

  /** `s.indexOf(t)`, with `None` for JavaScript's -1. */
  function IndexOf(s: string, t: string): Option<nat> {
    IndexOfFrom(s, t, 0)
  }

  /** `s.includes(t)`. */
  predicate Contains(s: string, t: string) {
    IndexOf(s, t).Some?
  }

  /** A witness position makes `Contains` true. */
  lemma ContainsAt(s: string, t: string, i: nat)
    requires OccursAt(s, t, i)
    ensures Contains(s, t)
  {
    IndexOfFromSpec(s, t, 0);
  }

  /** `s.replace(t, u)` with a string pattern: only the first occurrence is replaced. */
  function ReplaceFirst(s: string, t: string, u: string): string {
    match IndexOf(s, t)
    case None => s
    case Some(i) => s[..i] + u + s[i + |t|..]
  }

  /** Replacing a prefix that is present removes exactly that prefix. */
  lemma ReplacePrefix(s: string, p: string)
    requires StartsWith(s, p)
    ensures ReplaceFirst(s, p, "") == s[|p|..]
  {
    assert s[0..|p|] == p;
    IndexOfFromSpec(s, p, 0);
  }

  /** The last index of character `c` in `s` (`s.lastIndexOf(c)`). */
  function LastIndexOf(s: string, c: char): (r: Option<nat>)
    ensures r.Some? ==> r.value < |s| && s[r.value] == c && c !in s[r.value + 1..]
    ensures r.None? <==> c !in s
  {
    if |s| == 0 then None
    else if s[|s| - 1] == c then Some(|s| - 1)
    else
      var r := LastIndexOf(s[..|s| - 1], c);
      assert s == s[..|s| - 1] + [s[|s| - 1]];
      r
  }

  /** `c.toLowerCase()` for one character; only ASCII letters change. */
  function LowerChar(c: char): char {
    if 'A' <= c <= 'Z' then (c as int + 32) as char else c
  }

  /** `s.toLowerCase()`, character by character. */
  function ToLower(s: string): (r: string)
    ensures |r| == |s|
    ensures forall i :: 0 <= i < |s| ==> r[i] == LowerChar(s[i])
  {
    if s == [] then [] else [LowerChar(s[0])] + ToLower(s[1..])
  }

  /** Lower-casing twice is lower-casing once. */
  lemma {:induction false} ToLowerIdempotent(s: string)
    ensures ToLower(ToLower(s)) == ToLower(s)
  {
    if s != [] {
      ToLowerIdempotent(s[1..]);
    }
  }

  predicate IsLowerHexChar(c: char) {
    '0' <= c <= '9' || 'a' <= c <= 'f'
  }

  /** Every character matches the regular-expression class `[a-f0-9]`. */
  predicate IsLowerHex(s: string) {
    forall i :: 0 <= i < |s| ==> IsLowerHexChar(s[i])
  }

  /** `s.substring(0, n)`. */
  function Truncate(s: string, n: nat): (r: string)
    ensures |r| <= n && |r| <= |s|
    ensures StartsWith(s, r)
    ensures |s| <= n ==> r == s
  {
    if |s| <= n then s else s[..n]
  }

  /** The first index of character `c` in `s`. */
  function IndexOfChar(s: string, c: char): (r: Option<nat>)
    ensures r.Some? ==> r.value < |s| && s[r.value] == c && c !in s[..r.value]
    ensures r.None? <==> c !in s
  {
    if |s| == 0 then None
    else if s[0] == c then Some(0)
    else
      match IndexOfChar(s[1..], c)
      case None => None
      case Some(i) => Some(i + 1)
  }

  /** `s.split(sep)`: the pieces between separators, in order. */
  function Split(s: string, sep: char): (r: seq<string>)
    ensures |r| >= 1
    ensures forall k :: 0 <= k < |r| ==> sep !in r[k]
    decreases |s|
  {
    match IndexOfChar(s, sep)
    case None => [s]
    case Some(i) => [s[..i]] + Split(s[i + 1..], sep)
  }

  /** `xs.filter(Boolean)` over strings: the empty strings are dropped. */
  function NonEmpty(xs: seq<string>): (r: seq<string>)
    ensures |r| <= |xs|
    ensures forall k :: 0 <= k < |r| ==> r[k] != "" && r[k] in xs
  {
    if xs == [] then []
    else if xs[0] == "" then NonEmpty(xs[1..])
    else [xs[0]] + NonEmpty(xs[1..])
  }

  /** `path.join(a, b)` with a single separator; no normalisation. */
  function Join(a: string, b: string): string {
    a + "/" + b
  }

  /** `path.basename(p)`: the text after the last '/', ignoring trailing separators. */
  function Basename(p: string): (r: string)
    ensures '/' !in r
  {
    if p == [] then []
    else if p[|p| - 1] == '/' then Basename(p[..|p| - 1])
    else
      match LastIndexOf(p, '/')
      case None => p
      case Some(i) => p[i + 1..]
  }

  /** The decimal digits of `n` (template-literal interpolation of a number). */
  function NatToString(n: nat): (r: string)
    ensures |r| >= 1
    ensures forall i :: 0 <= i < |r| ==> '0' <= r[i] <= '9'
  {
    var d := ['0' + (n % 10) as char];
    if n < 10 then d else NatToString(n / 10) + d
  }
}

=== FILE: webhook.dfy ===
/** The GitHub webhook service: the repository mapping and the decisions of
    the push handler (src/services/webhookService.js). */
module Webhook {
  import opened Wrappers
  import opened Text
  import PR = PullReconciler

  // ---------------------------------------------------------------------------
  // The repository mapping (src/services/webhookService.js:52-67)

  /** The value stored under `key`, when it is truthy. */
  function Mapped(mapping: map<string, string>, key: string): (r: Option<string>)
    ensures r.Some? <==> key in mapping && mapping[key] != ""
    ensures r.Some? ==> r.value == mapping[key]
  {
    if key in mapping && mapping[key] != "" then Some(mapping[key]) else None
  }

  /** The keys getLocalPath tries, in order: the lower-cased name, the name as
      given, and two rewrites of the lower-cased name. */
  function Candidates(repo: string): (r: seq<string>)
    ensures |r| == 4
  {
    var lower := ToLower(repo);
    [lower, repo, ReplaceFirst(lower, "-core", "-Core"), ReplaceFirst(lower, "rise-core", "Rise-core")]
  }

  /** WebhookService.getLocalPath over the mapping `mapping`: the value of the
      first candidate key with a truthy value, or null. */
  function GetLocalPath(mapping: map<string, string>, repo: string): (r: Option<string>)
    ensures r.Some? ==> exists i :: 0 <= i < 4 && Mapped(mapping, Candidates(repo)[i]) == r &&
                                  forall j :: 0 <= j < i ==> Mapped(mapping, Candidates(repo)[j]).None?
    ensures r.None? <==> forall i :: 0 <= i < 4 ==> Mapped(mapping, Candidates(repo)[i]).None?
  {
    var keys := Candidates(repo);
    if Mapped(mapping, keys[0]).Some? then Mapped(mapping, keys[0])
    else if Mapped(mapping, keys[1]).Some? then Mapped(mapping, keys[1])
    else if Mapped(mapping, keys[2]).Some? then Mapped(mapping, keys[2])
    else Mapped(mapping, keys[3])
  }

  /** After storing a non-empty path under a name, every spelling of that name
      differing only in letter case resolves to the path. */
  lemma MappedAnyCasing(mapping: map<string, string>, repo: string, path: string, other: string)
    requires path != "" && ToLower(other) == ToLower(repo)
    ensures GetLocalPath(mapping[ToLower(repo) := path], other) == Some(path)
  {
    assert Candidates(other)[0] == ToLower(repo);
  }

  /** A path stored under the lower-cased name wins over one stored under the
      exact spelling. */
  lemma LowerCaseKeyFirst(mapping: map<string, string>, repo: string)
    requires Mapped(mapping, ToLower(repo)).Some?
    ensures GetLocalPath(mapping, repo) == Mapped(mapping, ToLower(repo))
  {
    assert Candidates(repo)[0] == ToLower(repo);
  }

  // ---------------------------------------------------------------------------
  // The push payload

  datatype Owner = Owner(name: Option<string>, login: Option<string>)
  datatype Repository = Repository(name: string, owner: Option<Owner>)
  datatype Commit = Commit(id: Option<string>, message: Option<string>)
  datatype Payload = Payload(repository: Option<Repository>, commits: Option<seq<Commit>>, ref: Option<string>)

  /** `payload.commits || []`. */
  function Commits(p: Payload): seq<Commit> {
    if p.commits.Some? then p.commits.value else []
  }

  /** `(payload.ref || '').replace('refs/heads/', '')`: the first occurrence is
      removed wherever it sits. */
  function Branch(p: Payload): string {
    ReplaceFirst(OrElse(p.ref, ""), "refs/heads/", "")
  }

  /** `repository.owner?.name || repository.owner?.login || 'unknown'`. */
  function OwnerName(r: Repository): string {
    match r.owner
    case None => "unknown"
    case Some(o) => OrElse(o.name, OrElse(o.login, "unknown"))
  }

  /** The repository name `owner/name` that is looked up in the mapping. */
  function RepoFullName(r: Repository): string {
    OwnerName(r) + "/" + r.name
  }

  /** The name shown when a push to another branch is ignored: there is no
      'unknown' fallback, and a missing login prints as "undefined". */
  function ShownName(r: Repository): string {
    var owner := match r.owner
      case None => "undefined"
      case Some(o) => if Truthy(o.name) then o.name.value else if o.login.Some? then o.login.value else "undefined";
    owner + "/" + r.name
  }

  /** `commit.message || ''`. */
  function Message(c: Commit): string {
    OrElse(c.message, "")
  }

  /** The commit asks for a pull: its lower-cased message mentions '@pull'. */
  predicate AsksForPull(c: Commit) {
    Contains(ToLower(Message(c)), "@pull")
  }

  /** Some commit asks for a pull. */
  predicate ShouldPull(cs: seq<Commit>) {
    exists k :: 0 <= k < |cs| && AsksForPull(cs[k])
  }

  /** Some commit asking for a pull has no id: logging `commit.id.substring(0, 7)` throws. */
  predicate MissingId(cs: seq<Commit>) {
    exists k :: 0 <= k < |cs| && AsksForPull(cs[k]) && cs[k].id.None?
  }

  /** The loop over the commits (src/services/webhookService.js:174-185):
      whether a pull is asked for, the messages, and whether it threw. */
  method ScanCommits(cs: seq<Commit>) returns (shouldPull: bool, messages: seq<string>, threw: bool)
    ensures threw <==> MissingId(cs)
    ensures !threw ==> (shouldPull <==> ShouldPull(cs))
    ensures !threw ==> |messages| == |cs| && forall k :: 0 <= k < |cs| ==> messages[k] == Message(cs[k])
  {
    shouldPull, messages, threw := false, [], false;
    var i := 0;
    while i < |cs|
      invariant 0 <= i <= |cs|
      invariant |messages| == i && forall k :: 0 <= k < i ==> messages[k] == Message(cs[k])
      invariant shouldPull <==> exists k :: 0 <= k < i && AsksForPull(cs[k])
      invariant forall k :: 0 <= k < i ==> !(AsksForPull(cs[k]) && cs[k].id.None?)
    {
      var message := OrElse(cs[i].message, "");
      messages := messages + [message];
      if Contains(ToLower(message), "@pull") {
        shouldPull := true;
        if cs[i].id.None? {
          threw := true;
          return;
        }
      }
      i := i + 1;
    }
  }

  // ---------------------------------------------------------------------------
  // The answer of POST /webhook (src/services/webhookService.js:132-257)

  datatype Response =
    | EventIgnored                                         // 200 'Evento ignorado'
    | NoRepository                                         // 400
    | BranchIgnored(branch: string, repo: string)          // 200 'Push ignorado - branch ...'
    | NotMapped(repo: string)                              // 200 'Repositório não mapeado'
    | NoPullRequested(repo: string, branch: string, commits: nat) // 200 'Nenhum commit com @pull encontrado'
    | Pulled(repo: string, result: string)                 // 200 'Pull executado com sucesso'
    | PulledWithStash(repo: string, result: string)        // 200 'Pull executado com stash ...'
    | PullFailed(repo: string, message: string)            // 500 'Erro ao executar pull'
    | ServerError(message: string)                         // 500 'Erro interno do servidor'
  {
    /** The HTTP status code of the answer. */
    function Code(): (c: nat)
      ensures c in {200, 400, 500}
    {
      match this
      case NoRepository => 400
      case PullFailed(_, _) => 500
      case ServerError(_) => 500
      case _ => 200
    }
  }

  /** One call of pullRepository. */
  datatype PullCall = PullCall(path: string, includeSubmodules: bool, mode: PR.Mode)

  const StashRetryPrefix: string := "Não foi possível fazer pull devido a mudanças locais: "
  const MissingIdError: string := "Cannot read properties of undefined (reading 'substring')"

  /** The answer of the pull of `repo` (src/services/webhookService.js:199-252)
      when git answers `first` to the normal-mode call and `second` to the
      stash-mode retry: the sentinel leads to the retry, a thrown error to 500. */
  function PullAnswer(repo: string, first: PR.PullOracle, second: PR.PullOracle,
                      stamp1: string, stamp2: string): (resp: Response)
    ensures resp.Pulled? || resp.PulledWithStash? || resp.PullFailed?
    ensures resp.repo == repo
    // the stash retry answers only for a dirty tree
    ensures resp.PulledWithStash? ==> first.status.Ok? && PR.Dirty(first)
    // a thrown error of either call is answered with 500 and its message
    ensures first.status.Err? ==> resp == PullFailed(repo, PR.PullFailurePrefix + first.status.error)
    ensures first.status.Ok? && PR.Dirty(first) && second.status.Err? ==>
      resp == PullFailed(repo, StashRetryPrefix + PR.PullFailurePrefix + second.status.error)
    ensures first.status.Ok? && PR.Dirty(first) && second.status.Ok? && PR.Dirty(second) && second.stashSave.Fail? ==>
      resp == PullFailed(repo, StashRetryPrefix + PR.PullFailurePrefix + second.stashSave.error)
    // the success reply never carries the sentinel
    ensures resp.Pulled? ==> resp.result != PR.HasChangesSentinel
  {
    var r1 := PR.PullResult(first, false, PR.Normal, stamp1);
    var r2 := PR.PullResult(second, false, PR.Stash, stamp2);
    PR.PullResultSpec(first, false, PR.Normal, stamp1);
    PR.PullResultSpec(second, false, PR.Stash, stamp2);
    if r1.Raised? then PullFailed(repo, r1.message)
    else
      PR.SentinelOnlyForHasChanges(r1);
      if PR.Render(r1) == PR.HasChangesSentinel then
        (if r2.Raised? then PullFailed(repo, StashRetryPrefix + r2.message)
         else PulledWithStash(repo, PR.Render(r2)))
      else Pulled(repo, PR.Render(r1))
  }

  /** The repository mapping and the push handler. */
  class WebhookService {
    /** The GitHub repository name (lower-cased when stored by this service)
        to local path dictionary. */
    var repoMapping: map<string, string>

    /** `loaded` is what `repoMapping.json` holds; an empty mapping when it is
        missing or unreadable. */
    constructor(loaded: Option<map<string, string>>)
      ensures repoMapping == (if loaded.Some? then loaded.value else map[])
    {
      repoMapping := if loaded.Some? then loaded.value else map[];
    }

    /** WebhookService.mapRepository. */
    method MapRepository(githubRepo: string, localPath: string)
      modifies this
      ensures repoMapping == old(repoMapping)[ToLower(githubRepo) := localPath]
      ensures localPath != "" ==> forall other :: ToLower(other) == ToLower(githubRepo) ==>
        GetLocalPath(repoMapping, other) == Some(localPath)
    {
      repoMapping := repoMapping[ToLower(githubRepo) := localPath];
      forall other | ToLower(other) == ToLower(githubRepo) && localPath != ""
        ensures GetLocalPath(repoMapping, other) == Some(localPath)
      {
        MappedAnyCasing(old(repoMapping), githubRepo, localPath, other);
      }
    }

    /** POST /mappings: both fields are required (truthy); the answer code. */
    method PostMapping(githubRepo: Option<string>, localPath: Option<string>) returns (code: nat)
      modifies this
      ensures code == 400 <==> !Truthy(githubRepo) || !Truthy(localPath)
      ensures code == 400 ==> repoMapping == old(repoMapping)
      ensures code != 400 ==>
        code == 200 && repoMapping == old(repoMapping)[ToLower(githubRepo.value) := localPath.value]
    {
      if !Truthy(githubRepo) || !Truthy(localPath) {
        return 400;
      }
      MapRepository(githubRepo.value, localPath.value);
      code := 200;
    }

    /** The pull of a mapped repository: normal mode first, and one retry in
        stash mode when the first call reports local changes. `first` and
        `second` are what git answers to each call, `stamp1` and `stamp2` the
        clock readings each call takes. */
    method PullMapped(repo: string, path: string, first: PR.PullOracle, second: PR.PullOracle,
                      stamp1: string, stamp2: string)
      returns (resp: Response, calls: seq<PullCall>)
      ensures |calls| >= 1 && calls[0] == PullCall(path, false, PR.Normal)
      ensures |calls| == 2 <==> first.status.Ok? && PR.Dirty(first)
      ensures |calls| == 2 ==> calls[1] == PullCall(path, false, PR.Stash)
      ensures |calls| <= 2
      ensures first.status.Err? ==> resp == PullFailed(repo, PR.PullFailurePrefix + first.status.error)
      ensures |calls| == 2 && second.status.Err? ==>
        resp == PullFailed(repo, StashRetryPrefix + PR.PullFailurePrefix + second.status.error)
      ensures resp.Pulled? || resp.PulledWithStash? || resp.PullFailed?
      ensures resp.PulledWithStash? ==> |calls| == 2
      // one call: the answer carries what the normal-mode pull returned
      ensures first.status.Ok? && !PR.Dirty(first) ==>
        resp == Pulled(repo, PR.Render(PR.PullResult(first, false, PR.Normal, stamp1)))
      // two calls: the answer carries what the stash-mode pull returned, or its error
      ensures |calls| == 2 && !PR.PullResult(second, false, PR.Stash, stamp2).Raised? ==>
        resp == PulledWithStash(repo, PR.Render(PR.PullResult(second, false, PR.Stash, stamp2)))
      ensures |calls| == 2 && PR.PullResult(second, false, PR.Stash, stamp2).Raised? ==>
        resp == PullFailed(repo, StashRetryPrefix + PR.PullResult(second, false, PR.Stash, stamp2).message)
      // a dirty tree whose stash save fails on the retry is answered with 500
      ensures |calls| == 2 && second.status.Ok? && PR.Dirty(second) && second.stashSave.Fail? ==>
        resp == PullFailed(repo, StashRetryPrefix + PR.PullFailurePrefix + second.stashSave.error)
      ensures resp == PullAnswer(repo, first, second, stamp1, stamp2)
    {
      calls := [PullCall(path, false, PR.Normal)];
      var r, _ := PR.PullRepository(first, false, PR.Normal, stamp1);
      if r.Raised? {
        return PullFailed(repo, r.message), calls;
      }
      PR.SentinelOnlyForHasChanges(r);
      if PR.Render(r) == PR.HasChangesSentinel {
        calls := calls + [PullCall(path, false, PR.Stash)];
        var r2, _ := PR.PullRepository(second, false, PR.Stash, stamp2);
        if r2.Raised? {
          return PullFailed(repo, StashRetryPrefix + r2.message), calls;
        }
        return PulledWithStash(repo, PR.Render(r2)), calls;
      }
      resp := Pulled(repo, PR.Render(r));
    }

    /** The POST /webhook handler for the event header `event` and the body
        `payload`. The signature check before it lets every request through
        and is not modelled. */
    method HandlePush(event: string, payload: Payload, first: PR.PullOracle, second: PR.PullOracle,
                      stamp1: string, stamp2: string)
      returns (resp: Response, calls: seq<PullCall>)
      ensures event != "push" ==> resp == EventIgnored && calls == []
      ensures event == "push" && payload.repository.None? ==> resp == NoRepository && calls == []
      ensures event == "push" && payload.repository.Some? && Branch(payload) != "main" ==>
        resp == BranchIgnored(Branch(payload), ShownName(payload.repository.value)) && calls == []
      ensures (event == "push" && payload.repository.Some? && Branch(payload) == "main" &&
               GetLocalPath(repoMapping, RepoFullName(payload.repository.value)).None?) ==>
        resp == NotMapped(RepoFullName(payload.repository.value)) && calls == []
      // a pull happens exactly when a mapped push to main has a commit asking for it
      ensures calls != [] <==>
        event == "push" && payload.repository.Some? && Branch(payload) == "main" &&
        GetLocalPath(repoMapping, RepoFullName(payload.repository.value)).Some? &&
        ShouldPull(Commits(payload)) && !MissingId(Commits(payload))
      ensures calls != [] ==>
        calls[0] == PullCall(GetLocalPath(repoMapping, RepoFullName(payload.repository.value)).value, false, PR.Normal) &&
        (|calls| == 2 <==> first.status.Ok? && PR.Dirty(first))
      ensures resp.NoPullRequested? ==> resp.commits == |Commits(payload)|
      // a mapped push to main with no commit asking for a pull is acknowledged with the commit count
      ensures event == "push" && payload.repository.Some? && Branch(payload) == "main" &&
              GetLocalPath(repoMapping, RepoFullName(payload.repository.value)).Some? &&
              !MissingId(Commits(payload)) && !ShouldPull(Commits(payload)) ==>
        resp == NoPullRequested(RepoFullName(payload.repository.value), "main", |Commits(payload)|) && calls == []
      // a pull: the retry is in stash mode, and the answer is the pull's
      ensures |calls| == 2 ==>
        calls[1] == PullCall(GetLocalPath(repoMapping, RepoFullName(payload.repository.value)).value, false, PR.Stash)
      ensures calls != [] ==> resp == PullAnswer(RepoFullName(payload.repository.value), first, second, stamp1, stamp2)
      ensures resp.ServerError? <==>
        calls == [] && event == "push" && payload.repository.Some? &&
        Branch(payload) == "main" && GetLocalPath(repoMapping, RepoFullName(payload.repository.value)).Some? &&
        MissingId(Commits(payload))
    {
      calls := [];
      if event != "push" {
        return EventIgnored, calls;
      }
      if payload.repository.None? {
        return NoRepository, calls;
      }
      var repository := payload.repository.value;
      var commits := if payload.commits.Some? then payload.commits.value else [];
      var branch := ReplaceFirst(OrElse(payload.ref, ""), "refs/heads/", "");
      if branch != "main" {
        return BranchIgnored(branch, ShownName(repository)), calls;
      }
      var repoFullName := OwnerName(repository) + "/" + repository.name;
      var localPath := GetLocalPath(repoMapping, repoFullName);
      if localPath.None? {
        return NotMapped(repoFullName), calls;
      }
      var shouldPull, messages, threw := ScanCommits(commits);
      if threw {
        return ServerError(MissingIdError), calls;
      }
      if !shouldPull {
        return NoPullRequested(repoFullName, branch, |messages|), calls;
      }
      resp, calls := PullMapped(repoFullName, localPath.value, first, second, stamp1, stamp2);
    }
  }
}

=== FILE: workspace.dfy ===
/** The answers of git and of the filesystem, given to the model as inputs, and
    the git commands the model records as issued. */
module Workspace {
  import opened Wrappers
  import opened Text

  /** The branch names tried, in this order, by the fallback chains. */
  const CommonBranches: seq<string> := ["main", "master", "develop", "development"]

  /** A git command that changes the working tree, the index, HEAD or the stash. */
  datatype GitOp =
    | StashSave(name: string)                      // git stash save <name>
    | StashPop                                     // git stash pop
    | Checkout(branch: string)                     // git checkout <branch>
    | CheckoutNew(branch: string, start: Option<string>) // git checkout -b <branch> [<start>]
    | CheckoutTrack(branch: string, remote: string) // git checkout -b <branch> --track <remote>
    | FetchAll                                     // git fetch --all
    | Pull                                         // git pull
    | PullNoRebase                                 // git pull --no-rebase
    | ResetHard(target: string)                    // git reset --hard <target>
    | SubmoduleInit                                // git submodule init
    | SubmoduleUpdate(initRecursive: bool)         // git submodule update [--init --recursive]
  {
    /** Moves HEAD to a branch. */
    predicate IsCheckout() {
      Checkout? || CheckoutNew? || CheckoutTrack?
    }

    /** Brings remote state into the working tree. */
    predicate IsRemoteSync() {
      Pull? || PullNoRebase? || ResetHard?
    }
  }

  /** Every checkout in `ops` comes before every pull or reset. */
  predicate CheckoutsFirst(ops: seq<GitOp>) {
    forall i, j :: 0 <= i < j < |ops| && ops[i].IsRemoteSync() ==> !ops[j].IsCheckout()
  }

  /** What the filesystem and git answer about one submodule, found by its full path. */
  datatype Probe = Probe(
    hasGitDir: bool,                 // fs.existsSync(<path>/.git)
    detached: bool,                  // git status: detached (a failed status reads as false)
    fetch: Outcome,                  // git fetch --all
    branches: Result<seq<string>>,   // git branch -a: the `all` list
    checkoutOk: set<string>,         // branches `git checkout <b>` succeeds for
    remotes: Result<seq<string>>,    // git remote -v: the remote names
    trackOk: set<string>)            // remote branches `git checkout -b <b> --track <r>` succeeds for
}

=== FILE: wrappers.dfy ===
/** Optional values and the success-or-error answers of the external calls
    (git, filesystem) that the model takes as inputs. */
module Wrappers {

  /** A value that may be absent: JavaScript's `undefined`/`null`. */
  datatype Option<+T> = None | Some(value: T)

  /** The answer of a call that returns a value or throws an Error with a message. */
  datatype Result<+T> = Ok(value: T) | Err(error: string)

  /** The answer of a call whose value is not used: it completes or throws. */
  datatype Outcome = Pass | Fail(error: string)

  /** JavaScript truthiness of an optional string: `undefined` and `''` are falsy. */
  predicate Truthy(s: Option<string>) {
    s.Some? && s.value != ""
  }

  /** `a || b` over optional strings. */
  function OrElse(a: Option<string>, b: string): (r: string)
    ensures Truthy(a) ==> r == a.value
    ensures !Truthy(a) ==> r == b
  {
    if Truthy(a) then a.value else b
  }
}
